=== FILE: README.md ===
# AI podcast turn-taking controller

This project models the turn-taking controller of the AI podcast. The avatar
greets the guest. The guest's answer is recorded, transcribed and sent to
the conversation engine. Then the turn passes on. The controller exists in
two variants, and each is modelled as a pure state machine.

- **Timer-driven** (`src/components/Podcast.jsx`, module `TimedPodcast`).
  Each guest turn is a recording that a ten-tick countdown stops. The
  recorder's `onstop` submits the audio. A reply from `chat` starts the next
  recording.
- **Silence-driven** (`src/components/PodcastwithSilence.jsx`, module
  `SilencePodcast`). The greeting is played. When playback ends, the guest
  is recorded, and every recording starts one more silence loop. A loop
  stops the recorder after two silent 100 ms polls. The recorder is started
  without a timeslice, so its only chunk arrives after `stop()`: the loop
  finds an empty buffer and only warns, and the recorder's `onstop` submits
  the recording. The reply is played, and when it ends the avatar
  introduces itself again. The loops share one `silenceTimer` variable, so
  a loop that acts can cancel another loop's next poll. The audio element
  keeps its `onended` handler, so replaying it from the controls runs the
  continuation again.

Each variant has an immutable `State` record and an `Event` datatype. The
events are the callbacks the browser and the collaborators deliver: mount,
stream arrival, a settled `chat` or transcription call, a recorder chunk,
the recorder's stop, a countdown tick, a silence poll and the end of
playback. A pure `Step` function maps a state and an event to the next state
and a list of `Effect`s. Effects are what the controller asks for: the
microphone, a `chat` call, the transcription POST, starting or stopping the
recorder, playing audio, `onMessagePlayed`, or a console report. `Run`
handles a whole trace of events. `Inv` is the invariant every step keeps.

Supporting modules:

- `Media`: chunks and the WAV payload, which is their concatenation.
- `Conversation`: turns, the five transcription languages and their codes,
  the fixed greeting, the transcription URL, collaborator outcomes and
  effects.
- `Countdown`: the ten-tick countdown.
- `Silence`: frame amplitude and the silence poll, in integers.
- `Trace`: running any step function over an event trace.

React state and the components' local variables are plain fields, updated
in program order. The browser, the network and `useChat` are outside the
model. Their results come in as events, so every interleaving of those
events is covered.

## Model

| member | source | states |
|---|---|---|
| Media.Concat | src/components/Podcast.jsx:106 | The payload built from the chunk buffer is empty exactly when every chunk is empty |
| Media.ConcatAppend | src/components/PodcastwithSilence.jsx:68-70 | Pushing a chunk onto the buffer appends its bytes to the end of the payload |
| Media.ChunkInPlace | src/components/Podcast.jsx:97-99 | Chunk order is preserved: chunk i appears in the payload right after the bytes of the chunks that arrived before it |
| Media.Assemble | src/components/Podcast.jsx:106 | Building the blob chunk by chunk gives the concatenation in arrival order, typed `audio/wav`, and is empty iff every chunk is |
| Conversation.Code | src/components/Podcast.jsx:251-255 | Every selectable language maps to one of the codes ar, en, fr, es, ja |
| Conversation.ParseCode | src/components/Podcast.jsx:246-256 | A selector value is accepted exactly when it is one of the five codes, and the accepted language maps back to that value |
| Conversation.CodeRoundTrip | src/components/Podcast.jsx:251-255 | Every language survives the trip through its code |
| Conversation.SttRequest | src/components/Podcast.jsx:134-140 | The transcription form carries the audio unchanged and a language field that is one of the five codes and reads back as the selected language |
| Countdown.Tick | src/components/Podcast.jsx:115-125 | A live tick lowers the display by exactly 1 and expires exactly on the tick that sees 1, clearing the interval and leaving 0; a cleared interval does nothing; the display stays within 0..10 |
| Countdown.TickTrace | src/components/Podcast.jsx:114-126 | From a live display c, the first c-1 ticks only count down, tick c is the one expiry, and later ticks are inert |
| Countdown.IdleStaysIdle | src/components/Podcast.jsx:119 | Once the interval is cleared, no number of ticks changes anything or fires |
| Countdown.TurnLastsTenTicks | src/components/Podcast.jsx:114-126 | After n < 10 ticks the display shows 10 - n and nothing has fired; after 10 or more it shows 0 and exactly one stop has fired |
| Silence.SampleDeviation | src/components/PodcastwithSilence.jsx:98 | A sample's distance from 128 is at most 128 and is 0 only at 128 |
| Silence.FrameDeviation | src/components/PodcastwithSilence.jsx:98 | The summed deviation of a frame is at most 128 times its length |
| Silence.SilentIffAmplitudeBelowThreshold | src/components/PodcastwithSilence.jsx:92-102 | For a non-empty frame, the integer test sum < length holds exactly when the real mean amplitude is below the threshold 1 |
| Silence.AmplitudeRange | src/components/PodcastwithSilence.jsx:97-98 | For every non-empty frame of byte samples, the mean amplitude lies between 0 and 128 |
| Silence.SilentFrameTouchesCenter | src/components/PodcastwithSilence.jsx:98-102 | A silent frame has at least one sample exactly at 128 |
| Silence.FlatFrameIsSilent | src/components/PodcastwithSilence.jsx:98-102 | A non-empty frame of all-128 samples is silent |
| Silence.Poll | src/components/PodcastwithSilence.jsx:102-121 | A silent poll adds exactly 100 ms and any other poll resets to 0; the poll fires only with a silent frame, at least 100 ms already banked and nothing processing, and always does under those conditions |
| Silence.CounterIsTrailingSilence | src/components/PodcastwithSilence.jsx:102-121 | After any sequence of polls the counter is 100 ms times the length of the trailing run of silent frames: those frames are silent and the frame before them is not |
| Silence.FiresIffTwoSilentPolls | src/components/PodcastwithSilence.jsx:93-106 | A poll fires exactly when it and the previous poll both saw silence and nothing is processing: never before two consecutive silent polls, never while the pipeline is in flight |
| TimedPodcast.OnMount | src/components/Podcast.jsx:32-37 | A second mount changes nothing; the first asks for audio-only capture and, when the guard allows, sends the greeting |
| TimedPodcast.OnMediaReady | src/components/Podcast.jsx:41-55 | A granted microphone stores the stream and changes nothing else, yet reports the media failure, because line 49 writes to an audio element that is never rendered |
| TimedPodcast.OnMediaReadyIntended | src/components/Podcast.jsx:41-55 | The grant as intended ends in the same state as the code's and reports nothing |
| TimedPodcast.Introduce | src/components/Podcast.jsx:58-62 | Sends something exactly when nothing is processing and it is the avatar's turn; then it sends only the greeting string and raises the guard; otherwise nothing changes |
| TimedPodcast.StartRecording | src/components/Podcast.jsx:88-126 | Without a stream: one error report and no change at all. With one: the recorder starts, the chunk buffer is emptied and the countdown is armed at 10; turn and guard are untouched |
| TimedPodcast.OnGreetingReturned | src/components/Podcast.jsx:58-75 | A failed or undefined greeting reply is reported; a non-empty reply makes it the guest's turn and starts recording; an empty one leaves turn and recorder alone; the guard is released in every case (corrected, see Findings) |
| TimedPodcast.GreetingReturnedAsWritten | src/components/Podcast.jsx:58-75 | As written, the guard is released only when the greeting call throws or the reply is undefined; its effects and every other field are those of the corrected continuation |
| TimedPodcast.SendAudio | src/components/Podcast.jsx:130-140 | While processing, nothing at all happens; otherwise the guard is raised and exactly one transcription request goes out with this audio and the selected language |
| TimedPodcast.OnSttReturned | src/components/Podcast.jsx:141-161 | The transcript, the empty string included, is passed to `chat` unchanged; a failed transcription is reported, releases the guard and starts nothing |
| TimedPodcast.OnReplyReturned | src/components/Podcast.jsx:146-161 | Any defined reply, even an empty array, makes it the guest's turn and starts a recording; a failure or an undefined reply starts none; the guard is released either way |
| TimedPodcast.OnData | src/components/Podcast.jsx:97-99 | While a recorder is live, a chunk is appended at the end of the buffer; otherwise nothing changes |
| TimedPodcast.OnRecorderStopped | src/components/Podcast.jsx:101-107 | `onstop`, whatever the turn, submits the buffered chunks as one WAV payload unless a request is in flight |
| TimedPodcast.OnTick | src/components/Podcast.jsx:115-125 | A live tick lowers the display by one; the recorder is stopped exactly on the tick that sees 1; a tick never submits audio nor touches the buffer or the guard |
| TimedPodcast.StepPreservesInv | src/components/Podcast.jsx:58-161 | Every event keeps the countdown within 0..10, a live countdown exactly while recording, the guard raised exactly while a request is outstanding, and no recording while processing |
| TimedPodcast.RunPreservesInv | src/components/Podcast.jsx:58-161 | The invariant holds after any trace of events |
| TimedPodcast.NoOverlappingCountdowns | src/components/Podcast.jsx:113-126 | A recording only starts when no recorder and no countdown are live, so a new interval never overlaps an old one |
| TimedPodcast.StepAsWrittenPreservesInv | src/components/Podcast.jsx:58-161 | For the component as written, every event keeps the countdown within 0..10 and live exactly while recording, and an outstanding request holds the guard with no recorder live; the guard may stay raised with nothing outstanding |
| TimedPodcast.RunAsWrittenPreservesInv | src/components/Podcast.jsx:58-161 | The invariant of the component as written holds after any trace of its events |
| TimedPodcast.AsWrittenNoOverlappingCountdowns | src/components/Podcast.jsx:113-126 | In the component as written too, a recording only starts when no recorder and no countdown are live |
| TimedPodcast.MediaRequestedAtMostOnce | src/components/Podcast.jsx:32-37 | Over any trace of events the microphone is requested at most once, and never after the mount guard is set |
| TimedPodcast.StepAsWritten | src/components/Podcast.jsx:32-161 | The component as written differs from `Step` only when a greeting returns, and then only in the guard flag |
| TimedPodcast.StepsMountOnce | src/components/Podcast.jsx:32-37 | Both step functions set the mount guard exactly on mount and ask for the microphone only at the head of the first mount's effects |
| TimedPodcast.AsWrittenMediaRequestedAtMostOnce | src/components/Podcast.jsx:32-37 | The component as written also requests the microphone at most once over any trace |
| TimedPodcast.GrantReportedLikeDenial | src/components/Podcast.jsx:41-55 | A granted and a denied microphone give the same console report, though only the grant stores the stream; the intended handler's report differs from a denial's |
| Conversation.AtMostOneMediaRequest | src/components/Podcast.jsx:32-37 | Any step function that sets its mount guard exactly on mount and asks for media only at the head of the first mount's effects asks for media at most once over any trace, and never once the guard is set |
| TimedPodcast.TicksStopOnce | src/components/Podcast.jsx:114-126 | During a recording the first c-1 ticks only count down; tick c stops the recorder once, hands the turn to the guest and leaves 0 |
| TimedPodcast.AfterStopTicksAreInert | src/components/Podcast.jsx:119 | After the interval is cleared, further ticks do nothing |
| TimedPodcast.TurnEndsAfterTenTicks | src/components/Podcast.jsx:109-126 | A fresh recording is stopped by its tenth tick and by no other |
| TimedPodcast.GreetingOpensGuestTurn | src/components/Podcast.jsx:32-71 | Mount, microphone, one-message greeting reply: the greeting is sent, the granted microphone is reported as a failure, the guest gets the turn, recording starts and the countdown shows 10 |
| TimedPodcast.AsWrittenGreetingDropsFirstAnswer | src/components/Podcast.jsx:58-75 | As written, after a successful greeting the guard stays raised with nothing outstanding; ten or more ticks stop the guest's first recording once, its chunk arrives after the stop, and `onstop` submits nothing and leaves the guard raised |
| TimedPodcast.CorrectedGreetingSubmitsFirstAnswer | src/components/Podcast.jsx:130-140 | With the guard released, ten or more ticks stop the first recording once, its chunk arrives after the stop, and `onstop` submits exactly that chunk as the payload, in Arabic |
| SilencePodcast.OnMount | src/components/PodcastwithSilence.jsx:20-25 | A second mount changes nothing; the first asks for camera and microphone and, when the guard allows, sends the greeting |
| SilencePodcast.Introduce | src/components/PodcastwithSilence.jsx:39-43 | Sends something exactly when nothing is processing and it is the avatar's turn; then only the greeting string, with the guard raised |
| SilencePodcast.PlayAudio | src/components/PodcastwithSilence.jsx:167-177 | Plays the base64 MP3 data URL of the audio, sets speaking and installs the continuation as the `onended` handler, replacing the previous one |
| SilencePodcast.StartRecording | src/components/PodcastwithSilence.jsx:59-82 | Without a stream: one error report and no change. With one: the recorder starts, the buffer is emptied and one more silence loop starts at 0 ms, the earlier loops kept |
| SilencePodcast.OnGreetingReturned | src/components/PodcastwithSilence.jsx:42-55 | A non-empty greeting reply plays its first message with the hand-over to the guest deferred to the end of playback; failures are reported; the guard is released (corrected, see Findings) |
| SilencePodcast.GreetingReturnedAsWritten | src/components/PodcastwithSilence.jsx:42-55 | As written, the guard is released only when the greeting call throws or the reply is undefined; its effects and every other field are those of the corrected continuation |
| SilencePodcast.SendAudio | src/components/PodcastwithSilence.jsx:134-140 | While processing, nothing at all happens; otherwise exactly one transcription request with this audio and the selected language |
| SilencePodcast.OnSttReturned | src/components/PodcastwithSilence.jsx:142-163 | The transcript, empty or not, is passed to `chat` unchanged; a failure is reported and releases the guard |
| SilencePodcast.OnReplyReturned | src/components/PodcastwithSilence.jsx:149-163 | With a message present it is played and the hand-back to the avatar is installed; on failure nothing plays; the turn is unchanged, the guard released, and the loop that awaited the submission schedules the next timeout |
| SilencePodcast.OnData | src/components/PodcastwithSilence.jsx:68-70 | While a recorder is live, a chunk is appended at the end of the buffer; otherwise nothing changes |
| SilencePodcast.OnRecorderStopped | src/components/PodcastwithSilence.jsx:72-77 | `onstop` submits only during the guest's turn and only when nothing is in flight; then it submits the buffered chunks as one WAV payload |
| SilencePodcast.ClearTimeout | src/components/PodcastwithSilence.jsx:107 | `clearTimeout(silenceTimer)` cancels exactly the loop whose timeout the shared variable holds, unless that is the acting loop or a loop awaiting a submission; nothing else changes |
| SilencePodcast.OnPoll | src/components/PodcastwithSilence.jsx:96-125 | One poll of one live loop: +100 ms on silence, 0 otherwise; it acts exactly when the loop has reached 200 ms with nothing processing, and then stops a live recorder first; acting cancels the loop whose timeout was scheduled last, and no other loop changes; an empty buffer only gives a warning, a non-empty one is submitted and the loop waits; the counter is not cleared; a poll with no effects changes nothing but the counters and, for a live loop, makes it the holder of `silenceTimer` (the reschedule at line 124), so it never stops the recorder or touches the guard |
| SilencePodcast.Act | src/components/PodcastwithSilence.jsx:104-117 | A loop that acts always produces effects: a live recorder is stopped first, only the loop holding `silenceTimer` is cancelled, an empty buffer gives exactly a warning, and a non-empty one is submitted whole while the loop waits |
| SilencePodcast.OnPollIntended | src/components/PodcastwithSilence.jsx:104-107 | The intended poll has the same effects as the code's, and a loop that acted is cancelled |
| SilencePodcast.OnPlaybackEnded | src/components/PodcastwithSilence.jsx:172-176 | The handler clears speaking, runs the continuation, reports `onMessagePlayed` last and stays installed. After the greeting the guest gets the turn and recording starts. After a reply the avatar gets the turn back and the greeting goes out again if the guard allows |
| SilencePodcast.StepAsWritten | src/components/PodcastwithSilence.jsx:20-177 | The component as written differs from `Step` only when a greeting returns, and then only in the guard flag |
| SilencePodcast.StepMountsOnce | src/components/PodcastwithSilence.jsx:20-25 | Only the mount sets the mount guard, and only the first mount asks for media, at the head of its effects |
| SilencePodcast.MediaRequestedAtMostOnce | src/components/PodcastwithSilence.jsx:20-25 | Camera and microphone are requested at most once over any trace, by the corrected controller and by the component as written |
| SilencePodcast.PollPreservesInv | src/components/PodcastwithSilence.jsx:96-125 | A poll keeps every counter a whole multiple of 100 ms and lets a loop wait only while its submission is outstanding, under the invariant of the component as written and under the full one |
| SilencePodcast.ChatReturnedPreservesInv | src/components/PodcastwithSilence.jsx:42-163 | A settled `chat` call, greeting or reply, corrected or as written, keeps the invariant of the component as written, and the full invariant when it held |
| SilencePodcast.StepPreservesInv | src/components/PodcastwithSilence.jsx:39-177 | Every event keeps the guard raised exactly while a request is outstanding, speaking only while a handler is installed, and the loop invariants |
| SilencePodcast.RunPreservesInv | src/components/PodcastwithSilence.jsx:39-177 | The invariant holds after any trace of events |
| SilencePodcast.StepAsWrittenPreservesInv | src/components/PodcastwithSilence.jsx:39-177 | For the component as written, every event keeps an outstanding request holding the guard, speaking only while a handler is installed, and the loop invariants; the guard may stay raised with nothing outstanding |
| SilencePodcast.RunAsWrittenPreservesInv | src/components/PodcastwithSilence.jsx:39-177 | The invariant of the component as written holds after any trace of its events |
| SilencePodcast.DuplicateStopIsRejected | src/components/PodcastwithSilence.jsx:72-76 | After the silence path has submitted, the recorder's own `onstop` submits nothing: one recording, one submission |
| SilencePodcast.ActingLoopCancelsLastScheduled | src/components/PodcastwithSilence.jsx:102-124 | When a loop acts while another live loop scheduled last, that other loop is cancelled and its later polls do nothing |
| SilencePodcast.StaleLoopResubmits | src/components/PodcastwithSilence.jsx:102-124 | A loop that already fired and is still at 200 ms or more submits the leftover buffer again on its next silent poll once the guard is down, even with the recorder stopped |
| SilencePodcast.IntendedLoopActsOnce | src/components/PodcastwithSilence.jsx:104-107 | With the intended poll, after a loop has acted its next poll does nothing, whatever the frame |
| SilencePodcast.GreetingPlaybackOpensGuestTurn | src/components/PodcastwithSilence.jsx:43-50 | When the greeting's first message finishes playing, the guest gets the turn, recording starts with one silence loop, and `onMessagePlayed` follows |
| SilencePodcast.SilenceStopsThenOnstopSubmits | src/components/PodcastwithSilence.jsx:68-116 | For any two silent frames: the first poll does nothing; the second stops the recorder, finds the buffer empty and only warns; the chunk then arrives and `onstop` submits it in Arabic |
| SilencePodcast.ReplayRestartsRecording | src/components/PodcastwithSilence.jsx:167-177 | Replaying the greeting from the controls runs the handler again: another recorder start, another loop and another `onMessagePlayed` |
| SilencePodcast.ListeningWhileProcessingIsInert | src/components/PodcastwithSilence.jsx:102-106 | While the guard is raised, no sequence of polls and chunks stops the recorder, submits, or changes the guard, the request or the turn |
| SilencePodcast.AsWrittenGreetingSilencesDetector | src/components/PodcastwithSilence.jsx:39-51 | As written, once the guest's turn has begun the guard is still raised with nothing outstanding, and after any sequence of polls and chunks the recording is still running and nothing was submitted |

## Left out

- Device I/O is not modelled: `getUserMedia`, `MediaRecorder`, `AudioContext` and `AnalyserNode` sampling, and the `<audio>` element. They appear as events in (stream ready or denied, chunk, stop, frame, ended) and effects out.
- Network calls are not modelled: the axios POST to `/stt` and the `chat` function of the `useChat` hook, which is not part of this model. Their outcomes are event payloads. The hook's `message` value after the await is carried in `ChatOk.current`.
- `sendTextToAnimaze` (`src/components/Podcast.jsx:78-86`) is left out because it is never called.
- The `detectSilence` copy in `src/components/Podcast.jsx:165-209` is left out because it is never called.
- The `playAudio` copy in `src/components/Podcast.jsx:216-229` is left out because it is never called. For the same reason the timer variant has no speaking flag: it is only ever set to false.
- React scheduling and stale closures are not modelled: state is one record updated in program order. Every controller callback is created by the first render's mount effect, so under stale closures it would read that render's state. These results rest on program order:
  - `SilencePodcast.OnRecorderStopped`, `SilenceStopsThenOnstopSubmits` and `DuplicateStopIsRejected`: the turn test at `src/components/PodcastwithSilence.jsx:73` would read `"avatar"`, so `onstop` would never submit.
  - `SilencePodcast.SendAudio` and `TimedPodcast.SendAudio`: the language posted at `src/components/PodcastwithSilence.jsx:140` and `src/components/Podcast.jsx:136` would stay `"ar"` whatever is selected.
  - `SilencePodcast.OnReplyReturned`: the `message` read at `src/components/PodcastwithSilence.jsx:152` would be the first render's value, not the reply.
  - Both greeting findings: the callbacks would read the first render's `isProcessing`, false, so the stuck guard would not block them.
- Floating-point division is replaced by the integer test `sum < length`. `Silence.SilentIffAmplitudeBelowThreshold` proves it equal to the real-valued mean test.
- An empty frame is treated as not silent (its mean would be NaN). The frame length of 128 samples (from `fftSize` 256) is not enforced.
- In the silence variant, the first `checkSilence` runs synchronously inside `startRecording`. Here it is the next `Poll` event instead, so a new loop becomes the holder of `silenceTimer` only at that poll.
- Chunk timing is left to the environment: any interleaving of chunks, polls and stops is allowed. A browser delivers one chunk after `stop()`, because both variants start the recorder without a timeslice. `SilencePodcast.SilenceStopsThenOnstopSubmits`, `TimedPodcast.AsWrittenGreetingDropsFirstAnswer` and `TimedPodcast.CorrectedGreetingSubmitsFirstAnswer` follow that order.
- There is one recorder slot. Starting a recording while an earlier one waits for `onstop` drops that `onstop`. In the timer variant `NoOverlappingCountdowns` shows this cannot happen.
- Calling `stop()` on a recorder that is not recording is a no-op, as in the MediaStream Recording API.
- The model follows the code where stricter behaviour might be expected. A silence loop keeps polling after it acts; it stops only when another loop's `clearTimeout` cancels its pending poll. The `onstop` path submits without checking for an empty payload. Transcription and conversation failures are only logged and release the guard. Nothing retries.
- The UI is left out: the recording toggle, the transcript display, the layout, the camera preview and the other components.
- SilencePodcast.Step: carries no contract of its own. The properties are stated on the handlers it dispatches to, in `StepMountsOnce` and in `StepPreservesInv`.
- TimedPodcast.Step: states only the mount-guard facts. The rest is stated on the handlers and in `StepPreservesInv`.

## Findings

| source | as written | input that shows it | evidently intended | confidence | as-written member | corrected member |
|---|---|---|---|---|---|---|
| src/components/Podcast.jsx:58-75 | `startAvatarIntroduction` raises `isProcessing` and lowers it only in `catch`. After a successful greeting the guard stays up with no request outstanding, so `sendAudioToBackend` returns at its guard for every later recording | mount, microphone granted, greeting reply of one message, ten ticks, `onstop` | lower the guard once the greeting's `chat` call has returned, as `sendAudioToBackend` does in its `finally` | medium, not executed; with React's stale closures the callbacks would read the first render's `isProcessing` instead | TimedPodcast.AsWrittenGreetingDropsFirstAnswer | TimedPodcast.CorrectedGreetingSubmitsFirstAnswer |
| src/components/PodcastwithSilence.jsx:39-56 | same: the guard is never lowered after a successful greeting. Every silence poll sees `isProcessing` set and never stops the recording, and `onstop` is never reached | mount, stream ready, greeting reply of one message, playback ended, any number of polls and chunks | lower the guard once the greeting's `chat` call has returned | medium, not executed; same caveat about stale closures | SilencePodcast.AsWrittenGreetingSilencesDetector | SilencePodcast.SilenceStopsThenOnstopSubmits |
| src/components/Podcast.jsx:41-55 | line 49 writes to `audioRef.current`, but no element carries `ref={audioRef}`, so it throws after line 48 has stored the stream, and the catch reports a camera and microphone failure | mount, microphone granted | store the stream and report nothing, or attach `audioRef` to an element | high, not executed | TimedPodcast.GrantReportedLikeDenial | TimedPodcast.OnMediaReadyIntended |
| src/components/PodcastwithSilence.jsx:102-124 | a loop that has acted keeps its counter at 200 ms or more and schedules its next poll. Once the guard drops after the reply, its next silent poll submits the same buffer a second time, while the avatar's reply plays | mount, stream ready, greeting played, two silent polls, the chunk, `onstop`, transcription and reply returned, one more silent poll | a loop acts once per recording: its own `clearTimeout` suggests it should stop polling | medium, not executed | SilencePodcast.StaleLoopResubmits | SilencePodcast.IntendedLoopActsOnce |

`Step` in both variants uses the corrected greeting continuation (`OnGreetingReturned`). With it, `Inv` holds and the guard is raised exactly while a request is outstanding. `StepAsWritten` is the component with its greeting continuation as written; it keeps the weaker `InvAsWritten`, in which the guard may stay raised with nothing outstanding. The other two findings only concern a console report and a second submission, which the invariants do not depend on, so `Step` keeps the code's behaviour there (`OnMediaReady`, `OnPoll`); the corrected members sit beside them.

=== FILE: conversation.dfy ===
/** Types shared by both turn-taking controllers: whose turn it is, the
    transcription languages, what the remote collaborators answer, and the
    effects a controller asks its environment to perform. */
module Conversation {
  import opened Media
  import Trace

  datatype Option<T> = None | Some(value: T)

  /** Whose speaking slot is active (`roundSpeak`). */
  datatype Turn = Avatar | Invitee

  /** The five languages the selector offers. */
  datatype Language = Arabic | English | French | Spanish | Japanese

  /** The language selected before the user touches the selector. */
  const DefaultLanguage: Language := Arabic

  /** The codes sent in the `language` form field. */
  const LanguageCodes: set<string> := {"ar", "en", "fr", "es", "ja"}

  function Code(l: Language): (r: string)
    ensures r in LanguageCodes
  {
    match l
    case Arabic => "ar"
    case English => "en"
    case French => "fr"
    case Spanish => "es"
    case Japanese => "ja"
  }

  /** Reads back a selector value; anything that is not one of the five codes is refused. */
  function ParseCode(s: string): (r: Option<Language>)
    ensures r.Some? ==> Code(r.value) == s
    ensures r.None? <==> s !in LanguageCodes
  {
    if s == "ar" then Some(Arabic)
    else if s == "en" then Some(English)
    else if s == "fr" then Some(French)
    else if s == "es" then Some(Spanish)
    else if s == "ja" then Some(Japanese)
    else None
  }

  /** Every language survives the trip through its code. */
  lemma CodeRoundTrip(l: Language)
    ensures ParseCode(Code(l)) == Some(l)
  {
  }

  /** The avatar's fixed opening line. */
  const Greeting: string := "Hello, welcome to the podcast!"

  /** Where recordings are posted for transcription. */
  const SttUrl: string := "http://localhost:3000/stt"

  /** Prefix of the source set on the audio element for a reply. */
  const AudioDataPrefix: string := "data:audio/mp3;base64,"

  /** One reply message of the conversation engine (animation cues not modelled). */
  datatype Message = Message(text: string, audio: string)

  /** What `chat` resolves to: an array of messages, or nothing at all. */
  datatype Reply = Undefined | Messages(list: seq<Message>)

  /** Outcome of awaiting `chat`: it throws, or it resolves to `response`;
      `current` is the hook's `message` value read after the await. */
  datatype ChatOutcome = ChatFailed | ChatOk(response: Reply, current: Option<Message>)

  /** Outcome of the transcription POST. */
  datatype SttOutcome = SttFailed | SttOk(transcript: string)

  /** The network request the controller is awaiting, if any. */
  datatype Call = NoCall | GreetingCall | SttCall | ReplyCall

  /** The state of the current `MediaRecorder`: `Stopping` means `stop()`
      was called and its `onstop` handler has not run yet. */
  datatype Recorder = Inactive | Recording | Stopping

  /** Errors and warnings written to the console. */
  datatype Report = NoStream | MediaFailed | IntroFailed | SendFailed | EmptyAudio

  /** The multipart form of a transcription request. */
  datatype Form = Form(audio: Blob, language: string)

  /** What a controller asks of the browser and the collaborators. */
  datatype Effect =
    | RequestMedia(video: bool)
    | SendChat(text: string)
    | PostStt(url: string, form: Form)
    | StartRecorder
    | StopRecorder
    | Play(src: string)
    | MessagePlayed
    | Log(report: Report)

  /** The transcription request for `audio` in language `l`. */
  function SttRequest(audio: Blob, l: Language): (e: Effect)
    ensures e.PostStt? && e.form.audio == audio
    ensures e.form.language in LanguageCodes && ParseCode(e.form.language) == Some(l)
  {
    PostStt(SttUrl, Form(audio, Code(l)))
  }

  /** True when no effect in `effects` is a transcription request. */
  predicate NoSubmission(effects: seq<Effect>)
  {
    forall i :: 0 <= i < |effects| ==> !effects[i].PostStt?
  }

  /** Number of microphone requests in `effects`. */
  function MediaRequests(effects: seq<Effect>): nat
  {
    if |effects| == 0 then 0
    else (if effects[0].RequestMedia? then 1 else 0) + MediaRequests(effects[1..])
  }

  /** True when no effect in `effects` asks for the microphone. */
  predicate NoMediaRequest(effects: seq<Effect>)
  {
    forall i :: 0 <= i < |effects| ==> !effects[i].RequestMedia?
  }

  lemma {:induction false} NoMediaRequestCountsZero(effects: seq<Effect>)
    requires NoMediaRequest(effects)
    ensures MediaRequests(effects) == 0
    decreases |effects|
  {
    if |effects| > 0 {
      NoMediaRequestCountsZero(effects[1..]);
    }
  }

  lemma {:induction false} MediaRequestsAppend(a: seq<Effect>, b: seq<Effect>)
    ensures MediaRequests(a + b) == MediaRequests(a) + MediaRequests(b)
    decreases |a|
  {
    if |a| == 0 {
      assert a + b == b;
    } else {
      assert (a + b)[1..] == a[1..] + b;
      MediaRequestsAppend(a[1..], b);
    }
  }

  /** A controller step that sets its mount guard exactly on the mount event
      (`done` reads the guard, `mount` recognises the event) and asks for
      media at most at the head of the first mount's effects. */
  ghost predicate MountsOnce<S(!new), E(!new)>(step: (S, E) -> Trace.Transition<S, Effect>, done: S -> bool, mount: E -> bool)
  {
    forall s: S, e: E ::
      && done(step(s, e).next) == (done(s) || mount(e))
      && (!(mount(e) && !done(s)) ==> NoMediaRequest(step(s, e).effects))
      && (mount(e) && !done(s) ==> |step(s, e).effects| >= 1 && NoMediaRequest(step(s, e).effects[1..]))
  }

  /** Such a controller asks for the camera or microphone at most once over
      any trace of events, and never once the guard is set. */
  lemma {:induction false} AtMostOneMediaRequest<S(!new), E(!new)>(
    step: (S, E) -> Trace.Transition<S, Effect>, done: S -> bool, mount: E -> bool, s: S, events: seq<E>)
    requires MountsOnce(step, done, mount)
    ensures MediaRequests(Trace.Run(step, s, events).effects) <= if done(s) then 0 else 1
    decreases |events|
  {
    if |events| > 0 {
      var t := step(s, events[0]);
      var rest := Trace.Run(step, t.next, events[1..]);
      assert Trace.Run(step, s, events).effects == t.effects + rest.effects;
      AtMostOneMediaRequest(step, done, mount, t.next, events[1..]);
      MediaRequestsAppend(t.effects, rest.effects);
      if mount(events[0]) && !done(s) {
        assert t.effects == [t.effects[0]] + t.effects[1..];
        MediaRequestsAppend([t.effects[0]], t.effects[1..]);
        NoMediaRequestCountsZero(t.effects[1..]);
      } else {
        NoMediaRequestCountsZero(t.effects);
      }
    }
  }
}

=== FILE: countdown.dfy ===
/** The guest turn's countdown in the timer-driven controller: a one-second
    interval that counts a displayed value down from ten and stops the
    recorder on the tick that sees one. */
module Countdown {

  /** Length of a guest turn, in ticks (seconds). */
  const TurnSeconds: int := 10

  /** The displayed `countdown` value and whether its interval is still live. */
  datatype Timer = Timer(count: int, armed: bool)

  /** Before any recording: the display shows 0 and no interval runs. */
  const Idle: Timer := Timer(0, false)

  /** Right after a recording starts. */
  const Armed: Timer := Timer(TurnSeconds, true)

  /** The display stays within 0..10 and a live interval never shows 0. */
  ghost predicate Valid(t: Timer)
  {
    0 <= t.count <= TurnSeconds && (t.armed ==> 1 <= t.count)
  }

  datatype TickResult = TickResult(timer: Timer, expired: bool)

  /** One interval callback. `expired` says the recorder must be stopped now. */
  function Tick(t: Timer): (r: TickResult)
    ensures !t.armed ==> r == TickResult(t, false)
    ensures t.armed ==> r.timer.count == t.count - 1
    ensures r.expired <==> t.armed && t.count == 1
    ensures r.expired ==> !r.timer.armed && r.timer.count == 0
    ensures Valid(t) ==> Valid(r.timer)
  {
    if !t.armed then TickResult(t, false)
    else if t.count == 1 then TickResult(Timer(0, false), true)
    else TickResult(Timer(t.count - 1, true), false)
  }

  /** `n` interval callbacks in a row: the final timer and how many of them expired. */
  function RunTicks(t: Timer, n: nat): (Timer, nat)
    decreases n
  {
    if n == 0 then (t, 0)
    else
      var r := Tick(t);
      var rest := RunTicks(r.timer, n - 1);
      (rest.0, rest.1 + (if r.expired then 1 else 0))
  }

  /** From a live countdown showing `c`, the c-th tick is the only one that
      expires, and every later tick is inert. */
  lemma {:induction false} TickTrace(c: int, n: nat)
    requires 1 <= c
    ensures RunTicks(Timer(c, true), n) ==
      if n < c then (Timer(c - n, true), 0) else (Timer(0, false), 1)
    decreases n
  {
    if n > 0 {
      if c == 1 {
        IdleStaysIdle(Timer(0, false), n - 1);
      } else {
        TickTrace(c - 1, n - 1);
      }
    }
  }

  /** A cleared interval never fires again. */
  lemma {:induction false} IdleStaysIdle(t: Timer, n: nat)
    requires !t.armed
    ensures RunTicks(t, n) == (t, 0)
    decreases n
  {
    if n > 0 {
      IdleStaysIdle(t, n - 1);
    }
  }

  /** A guest turn: ten ticks show 10, 9, ..., 1, the tenth stops the
      recorder, and afterwards the display rests at 0 with nothing firing. */
  lemma TurnLastsTenTicks(n: nat)
    ensures n < TurnSeconds ==> RunTicks(Armed, n) == (Timer(TurnSeconds - n, true), 0)
    ensures n >= TurnSeconds ==> RunTicks(Armed, n) == (Timer(0, false), 1)
  {
    TickTrace(TurnSeconds, n);
  }
}

=== FILE: media.dfy ===
/** Audio bytes, recorder chunks and the payload assembled from them. */
module Media {

  /** One byte of audio data or one 8-bit time-domain sample (0..255). */
  type byte = x: int | 0 <= x < 256

  /** The data of one `dataavailable` event of the recorder. */
  type Chunk = seq<byte>

  /** A binary blob tagged with a MIME type. */
  datatype Blob = Blob(data: seq<byte>, mime: string)

  /** The MIME type every submitted recording is tagged with. */
  const WavMime: string := "audio/wav"

  /** The bytes of a blob built from `chunks`: the chunks joined in order. */
  function Concat(chunks: seq<Chunk>): (r: seq<byte>)
    ensures |r| == 0 <==> forall i :: 0 <= i < |chunks| ==> |chunks[i]| == 0
  {
    if |chunks| == 0 then [] else chunks[0] + Concat(chunks[1..])
  }

  /** The payload submitted at the end of a guest turn. */
  function Payload(chunks: seq<Chunk>): Blob
  {
    Blob(Concat(chunks), WavMime)
  }

  /** Joining two runs of chunks joins their bytes. */
  lemma {:induction false} ConcatAppend(a: seq<Chunk>, b: seq<Chunk>)
    ensures Concat(a + b) == Concat(a) + Concat(b)
    decreases |a|
  {
    if |a| == 0 {
      assert a + b == b;
    } else {
      assert (a + b)[1..] == a[1..] + b;
      ConcatAppend(a[1..], b);
    }
  }

  /** Chunk order is preserved: chunk `i` sits in the payload right after
      the bytes of the chunks that arrived before it. */
  lemma ChunkInPlace(chunks: seq<Chunk>, i: nat)
    requires i < |chunks|
    ensures var off := |Concat(chunks[..i])|;
      off + |chunks[i]| <= |Concat(chunks)| &&
      Concat(chunks)[off .. off + |chunks[i]|] == chunks[i]
  {
    assert chunks == chunks[..i] + ([chunks[i]] + chunks[i + 1..]);
    ConcatAppend(chunks[..i], [chunks[i]] + chunks[i + 1..]);
    assert ([chunks[i]] + chunks[i + 1..])[1..] == chunks[i + 1..];
  }

  /** Builds the payload the way the browser does: one chunk after another. */
  method Assemble(chunks: seq<Chunk>) returns (b: Blob)
    ensures b.mime == WavMime
    ensures b.data == Concat(chunks)
    ensures |b.data| == 0 <==> forall i :: 0 <= i < |chunks| ==> |chunks[i]| == 0
  {
    var data: seq<byte> := [];
    var i := 0;
    while i < |chunks|
      invariant 0 <= i <= |chunks|
      invariant data == Concat(chunks[..i])
    {
      ConcatAppend(chunks[..i], [chunks[i]]);
      assert chunks[..i + 1] == chunks[..i] + [chunks[i]];
      data := data + chunks[i];
      i := i + 1;
    }
    assert chunks[..i] == chunks;
    b := Blob(data, WavMime);
  }
}

=== FILE: silence.dfy ===
/** The silence detector of the silence-driven controller: the amplitude of
    one frame of 8-bit time-domain samples, and the poll that accumulates
    silent time in 100 ms steps. */
module Silence {
  import opened Media

  /** The sample value of a zero signal in 8-bit time-domain data. */
  const Center: int := 128

  /** A frame is silent when its mean deviation from `Center` is below this. */
  const Threshold: int := 1

  /** Silent time credited per poll, and the poll period, in milliseconds. */
  const PollMs: nat := 100

  /** Accumulated silence needed before the recording is stopped. */
  const MinSilenceMs: nat := 200

  /** Distance of one sample from the centre line. */
  function SampleDeviation(v: byte): (r: nat)
    ensures r <= Center
    ensures r == 0 <==> v == Center
  {
    if v >= Center then v - Center else Center - v
  }

  /** Sum of the sample deviations, folded left to right. */
  function FrameDeviation(frame: seq<byte>): (r: nat)
    ensures r <= Center * |frame|
  {
    if |frame| == 0 then 0
    else FrameDeviation(frame[..|frame| - 1]) + SampleDeviation(frame[|frame| - 1])
  }

  /** The mean deviation of a non-empty frame, as a real number. */
  ghost function Amplitude(frame: seq<byte>): real
    requires |frame| > 0
  {
    (FrameDeviation(frame) as real) / (|frame| as real)
  }

  /** Silence in integers. An empty frame has mean 0/0, which is not below
      the threshold, so it is never silent. */
  predicate IsSilent(frame: seq<byte>)
  {
    |frame| > 0 && FrameDeviation(frame) < Threshold * |frame|
  }

  /** The integer test agrees with "mean amplitude below the threshold". */
  lemma SilentIffAmplitudeBelowThreshold(frame: seq<byte>)
    requires |frame| > 0
    ensures IsSilent(frame) <==> Amplitude(frame) < Threshold as real
  {
    var n := |frame| as real;
    var d := FrameDeviation(frame) as real;
    assert (Threshold as real) - Amplitude(frame) == (n - d) / n;
    QuotientSign(n - d, n);
  }

  /** Dividing by a positive number keeps the sign. */
  lemma QuotientSign(x: real, y: real)
    requires y > 0.0
    ensures x / y > 0.0 <==> x > 0.0
  {
    var q := x / y;
    assert q * y == x;
    if q > 0.0 {
      assert q * y > 0.0;
    } else {
      assert -q >= 0.0;
      assert (-q) * y >= 0.0;
    }
  }

  /** The amplitude of byte samples lies in 0..128. */
  lemma AmplitudeRange(frame: seq<byte>)
    requires |frame| > 0
    ensures 0.0 <= Amplitude(frame) <= Center as real
  {
    var n := |frame| as real;
    var d := FrameDeviation(frame) as real;
    var c := Center as real;
    assert c * n - d >= 0.0;
    assert c - Amplitude(frame) == (c * n - d) / n;
  }

  /** A silent frame has at least one sample exactly on the centre line:
      otherwise every sample would contribute at least 1 to the sum. */
  lemma {:induction false} SilentFrameTouchesCenter(frame: seq<byte>)
    requires IsSilent(frame)
    ensures exists i :: 0 <= i < |frame| && frame[i] == Center
  {
    if forall i :: 0 <= i < |frame| ==> frame[i] != Center {
      OffCenterIsLoud(frame);
      assert false;
    }
  }

  lemma {:induction false} OffCenterIsLoud(frame: seq<byte>)
    requires forall i :: 0 <= i < |frame| ==> frame[i] != Center
    ensures FrameDeviation(frame) >= |frame|
  {
    if |frame| > 0 {
      var p := frame[..|frame| - 1];
      assert forall i :: 0 <= i < |p| ==> p[i] == frame[i];
      OffCenterIsLoud(p);
    }
  }

  /** A flat frame at the centre line is silent. */
  lemma {:induction false} FlatFrameIsSilent(frame: seq<byte>)
    requires |frame| > 0
    requires forall i :: 0 <= i < |frame| ==> frame[i] == Center
    ensures IsSilent(frame)
  {
    FlatFrameHasNoDeviation(frame);
  }

  lemma {:induction false} FlatFrameHasNoDeviation(frame: seq<byte>)
    requires forall i :: 0 <= i < |frame| ==> frame[i] == Center
    ensures FrameDeviation(frame) == 0
  {
    if |frame| > 0 {
      var p := frame[..|frame| - 1];
      assert forall i :: 0 <= i < |p| ==> p[i] == frame[i];
      FlatFrameHasNoDeviation(p);
    }
  }

  datatype PollResult = PollResult(silenceMs: nat, fire: bool)

  /** One `checkSilence` poll: credit or reset the silent time, and decide
      whether to stop the recording. */
  function Poll(silenceMs: nat, frame: seq<byte>, processing: bool): (r: PollResult)
    ensures IsSilent(frame) ==> r.silenceMs == silenceMs + PollMs
    ensures !IsSilent(frame) ==> r == PollResult(0, false)
    ensures r.fire ==> !processing && IsSilent(frame) && silenceMs >= PollMs
    ensures IsSilent(frame) && silenceMs >= PollMs && !processing ==> r.fire
  {
    if IsSilent(frame) then
      var ms := silenceMs + PollMs;
      PollResult(ms, ms >= MinSilenceMs && !processing)
    else
      PollResult(0, false)
  }

  /** The silent time a fresh detector holds after polling `frames`. */
  function Counter(frames: seq<seq<byte>>): nat
  {
    if |frames| == 0 then 0
    else Poll(Counter(frames[..|frames| - 1]), frames[|frames| - 1], true).silenceMs
  }

  /** True when every frame of `frames` is silent. */
  predicate AllSilent(frames: seq<seq<byte>>)
  {
    forall i :: 0 <= i < |frames| ==> IsSilent(frames[i])
  }

  /** The counter is 100 ms times the length of the trailing run of silent
      frames: the last `k` frames are silent and the one before them (if any)
      is not. */
  lemma {:induction false} CounterIsTrailingSilence(frames: seq<seq<byte>>)
    ensures Counter(frames) % PollMs == 0
    ensures Counter(frames) / PollMs <= |frames|
    ensures AllSilent(frames[|frames| - Counter(frames) / PollMs..])
    ensures Counter(frames) / PollMs < |frames| ==>
      !IsSilent(frames[|frames| - Counter(frames) / PollMs - 1])
  {
    var n := |frames|;
    if n > 0 {
      var p := frames[..n - 1];
      CounterIsTrailingSilence(p);
      var k := Counter(p) / PollMs;
      if IsSilent(frames[n - 1]) {
        assert Counter(frames) == Counter(p) + PollMs;
        assert Counter(frames) / PollMs == k + 1;
        assert frames[n - (k + 1)..] == p[n - 1 - k..] + [frames[n - 1]];
      } else {
        assert Counter(frames) == 0;
      }
    }
  }

  /** The poll after `frames` fires exactly when the polled frame and the one
      before it are both silent and no request is in flight: never before two
      consecutive silent polls, never while processing. */
  lemma FiresIffTwoSilentPolls(frames: seq<seq<byte>>, frame: seq<byte>, processing: bool)
    ensures Poll(Counter(frames), frame, processing).fire <==>
      !processing && IsSilent(frame) && |frames| >= 1 && IsSilent(frames[|frames| - 1])
  {
    CounterIsTrailingSilence(frames);
    var n := |frames|;
    if n >= 1 && IsSilent(frames[n - 1]) {
      assert Counter(frames) == Counter(frames[..n - 1]) + PollMs;
    }
  }
}

=== FILE: silence_podcast.dfy ===
/** The silence-driven turn-taking controller: the avatar's greeting is
    played, the guest is recorded until a silence detector sees two silent
    polls in a row, the audio is transcribed and answered, and when the
    answer has played the avatar introduces itself again. */
module SilencePodcast {
  import opened Media
  import opened Conversation
  import Silence
  import Trace

  /** One `checkSilence` loop. Every recording starts a new loop. A loop
      polls until another loop's `clearTimeout` cancels the timeout it has
      scheduled; then it never polls again. */
  datatype Detector = Detector(silenceMs: nat, cancelled: bool)

  /** The continuation an `onended` handler runs after `isSpeaking := false`. */
  datatype AfterPlay = AfterGreeting | AfterReply

  /** The controller's state. React state and the component's local
      variables are plain fields here, updated in program order. */
  datatype State = State(
    initDone: bool,             // the mount guard has run
    stream: bool,               // the camera-and-microphone stream has arrived
    turn: Turn,
    processing: bool,           // the re-entrancy guard
    speaking: bool,             // the avatar's audio is playing
    language: Language,
    transcript: string,         // last transcript shown to the user
    pending: Call,              // the request being awaited
    recorder: Recorder,
    chunks: seq<Chunk>,         // the current recording's chunk buffer
    detectors: seq<Detector>,   // every silence loop started so far
    waiting: Option<nat>,       // the loop awaiting its submission, if any
    lastTimer: Option<nat>,     // the loop whose timeout `silenceTimer` holds
    onEnded: Option<AfterPlay>) // the audio element's installed `onended` handler

  /** The state on first render. */
  const Init: State :=
    State(false, false, Avatar, false, false, DefaultLanguage, "", NoCall, Inactive, [], [], None, None, None)

  /** Everything that can call back into the controller. */
  datatype Event =
    | Mount                              // the mount effect runs
    | MediaReady                         // the media request resolved
    | MediaDenied                        // the media request was rejected
    | ChatReturned(chat: ChatOutcome)    // an awaited `chat` settled
    | SttReturned(stt: SttOutcome)       // the awaited transcription POST settled
    | DataAvailable(chunk: Chunk)        // the recorder delivered a chunk
    | RecorderStopped                    // the recorder's `onstop` fires
    | Poll(loop: nat, frame: seq<byte>)  // silence loop `loop` samples a frame
    | PlaybackEnded                      // the audio element finished playing, a replay included
    | SelectLanguage(choice: Language)

  type Transition = Trace.Transition<State, Effect>

  /** Loop `k` exists, has not been cancelled and is not awaiting a
      submission, so its next timeout will run a poll. */
  predicate Polling(s: State, k: nat)
  {
    k < |s.detectors| && !s.detectors[k].cancelled && s.waiting != Some(k)
  }

  /** What the component as written keeps: an outstanding request holds
      the guard, every silence counter is a whole number of polls, a loop
      waits only while a submission is outstanding, and speaking implies a
      handler. The guard may stay raised with nothing outstanding. */
  ghost predicate InvAsWritten(s: State)
  {
    && (s.pending != NoCall ==> s.processing)
    && (s.speaking ==> s.onEnded.Some?)
    && (forall k :: 0 <= k < |s.detectors| ==> s.detectors[k].silenceMs % Silence.PollMs == 0)
    && (s.waiting.Some? ==>
          (s.pending == SttCall || s.pending == ReplyCall) && s.waiting.value < |s.detectors|)
    && (!s.initDone ==>
          && !s.processing && s.pending == NoCall && s.recorder == Inactive && s.detectors == []
          && s.waiting == None && s.lastTimer == None && s.onEnded == None)
  }

  /** In addition, the guard is raised only while a request is outstanding. */
  ghost predicate Inv(s: State)
  {
    && InvAsWritten(s)
    && (s.processing ==> s.pending != NoCall)
  }

  /** The mount effect: acquire the camera and microphone and greet, once per session. */
  function OnMount(s: State): (t: Transition)
    ensures s.initDone ==> t == Trace.Transition(s, [])
    ensures !s.initDone ==> t.next.initDone && |t.effects| >= 1 && t.effects[0] == RequestMedia(true)
    ensures !s.initDone && !s.processing && s.turn == Avatar ==>
      t.effects == [RequestMedia(true), SendChat(Greeting)] && t.next.processing
  {
    if s.initDone then Trace.Transition(s, [])
    else
      var t := Introduce(s.(initDone := true));
      Trace.Transition(t.next, [RequestMedia(true)] + t.effects)
  }

  /** The avatar's introduction: send the greeting unless a request is in
      flight or it is not the avatar's turn. */
  function Introduce(s: State): (t: Transition)
    ensures t.effects == [] ==> t.next == s
    ensures t.effects != [] <==> !s.processing && s.turn == Avatar
    ensures t.effects != [] ==>
      t.effects == [SendChat(Greeting)] && t.next.processing && t.next.pending == GreetingCall
      && t.next.turn == s.turn && t.next.detectors == s.detectors && t.next.onEnded == s.onEnded
  {
    if s.processing || s.turn != Avatar then Trace.Transition(s, [])
    else Trace.Transition(s.(processing := true, pending := GreetingCall), [SendChat(Greeting)])
  }

  /** `playAudio`: point the audio element at the message and install
      `after` as its `onended` handler, replacing the previous one. */
  function PlayAudio(s: State, audio: string, after: AfterPlay): (t: Transition)
    ensures t.effects == [Play(AudioDataPrefix + audio)]
    ensures t.next.speaking && t.next.onEnded == Some(after)
    ensures t.next.turn == s.turn && t.next.pending == s.pending && t.next.detectors == s.detectors
  {
    Trace.Transition(s.(speaking := true, onEnded := Some(after)), [Play(AudioDataPrefix + audio)])
  }

  /** Start a recording: with no stream report an error and change nothing;
      otherwise empty the chunk buffer, start the recorder and start one more
      silence loop with nothing accumulated. */
  function StartRecording(s: State): (t: Transition)
    ensures !s.stream ==> t == Trace.Transition(s, [Log(NoStream)])
    ensures s.stream ==>
      t.effects == [StartRecorder] && t.next.recorder == Recording && t.next.chunks == []
      && t.next.detectors == s.detectors + [Detector(0, false)]
    ensures t.next.turn == s.turn && t.next.processing == s.processing && t.next.pending == s.pending
    ensures t.next.onEnded == s.onEnded && t.next.speaking == s.speaking && t.next.waiting == s.waiting
  {
    if !s.stream then Trace.Transition(s, [Log(NoStream)])
    else
      Trace.Transition(s.(recorder := Recording, chunks := [], detectors := s.detectors + [Detector(0, false)]),
                       [StartRecorder])
  }

  /** The greeting's `chat` settled. A failure, or an undefined reply whose
      `length` throws, is reported; a non-empty reply plays its first message
      and leaves the hand-over to the end of playback; an empty one does
      nothing. Once the call has settled the guard is released. */
  function OnGreetingReturned(s: State, o: ChatOutcome): (t: Transition)
    requires s.pending == GreetingCall
    ensures !t.next.processing && t.next.pending == NoCall
    ensures t.next.turn == s.turn && t.next.detectors == s.detectors && t.next.recorder == s.recorder
    ensures (o.ChatFailed? || o.response.Undefined?) ==>
      t.effects == [Log(IntroFailed)] && t.next.onEnded == s.onEnded
    ensures o.ChatOk? && o.response.Messages? && |o.response.list| > 0 ==>
      t.effects == [Play(AudioDataPrefix + o.response.list[0].audio)] && t.next.onEnded == Some(AfterGreeting)
    ensures o.ChatOk? && o.response.Messages? && |o.response.list| == 0 ==>
      t.effects == [] && t.next.onEnded == s.onEnded
  {
    var released := s.(processing := false, pending := NoCall);
    match o
    case ChatFailed => Trace.Transition(released, [Log(IntroFailed)])
    case ChatOk(Undefined, _) => Trace.Transition(released, [Log(IntroFailed)])
    case ChatOk(Messages(list), _) =>
      if |list| > 0 then PlayAudio(released, list[0].audio, AfterGreeting)
      else Trace.Transition(released, [])
  }

  /** The greeting's continuation exactly as the component writes it: the
      guard is released only when the call throws; otherwise it does what
      the corrected continuation does. */
  function GreetingReturnedAsWritten(s: State, o: ChatOutcome): (t: Transition)
    requires s.pending == GreetingCall
    ensures t.next.pending == NoCall
    ensures t.next.processing <==> s.processing && !(o.ChatFailed? || o.response.Undefined?)
    ensures t.effects == OnGreetingReturned(s, o).effects
    ensures t.next.(processing := false) == OnGreetingReturned(s, o).next
  {
    var settled := s.(pending := NoCall);
    match o
    case ChatFailed => Trace.Transition(settled.(processing := false), [Log(IntroFailed)])
    case ChatOk(Undefined, _) => Trace.Transition(settled.(processing := false), [Log(IntroFailed)])
    case ChatOk(Messages(list), _) =>
      if |list| > 0 then PlayAudio(settled, list[0].audio, AfterGreeting)
      else Trace.Transition(settled, [])
  }

  /** `sendAudioToBackend`: ignored while a request is in flight; otherwise
      raise the guard and post the audio with the selected language. */
  function SendAudio(s: State, audio: Blob): (t: Transition)
    ensures s.processing ==> t == Trace.Transition(s, [])
    ensures !s.processing ==>
      t.effects == [SttRequest(audio, s.language)] && t.next.processing && t.next.pending == SttCall
      && t.next.turn == s.turn && t.next.recorder == s.recorder && t.next.detectors == s.detectors
      && t.next.waiting == s.waiting
  {
    if s.processing then Trace.Transition(s, [])
    else Trace.Transition(s.(processing := true, pending := SttCall), [SttRequest(audio, s.language)])
  }

  /** The `finally` of a submission: lower the guard; the loop that awaited
      the submission then schedules its next poll, so `silenceTimer` holds
      that loop's timeout. */
  function Release(s: State): (r: State)
    ensures !r.processing && r.pending == NoCall && r.waiting == None && r.detectors == s.detectors
    ensures s.waiting.Some? ==> r.lastTimer == s.waiting
    ensures s.waiting.None? ==> r.lastTimer == s.lastTimer
    ensures r.turn == s.turn && r.onEnded == s.onEnded && r.speaking == s.speaking && r.recorder == s.recorder
  {
    s.(processing := false, pending := NoCall, waiting := None,
       lastTimer := if s.waiting.Some? then s.waiting else s.lastTimer)
  }

  /** The transcription settled: pass the transcript to `chat` unchanged
      (the empty string included), or give up and release the guard. */
  function OnSttReturned(s: State, o: SttOutcome): (t: Transition)
    requires s.pending == SttCall
    ensures o.SttOk? ==>
      t.effects == [SendChat(o.transcript)] && t.next.transcript == o.transcript
      && t.next.pending == ReplyCall && t.next.processing == s.processing && t.next.waiting == s.waiting
    ensures o.SttFailed? ==>
      t.effects == [Log(SendFailed)] && !t.next.processing && t.next.pending == NoCall
      && t.next.turn == s.turn && t.next.onEnded == s.onEnded && t.next.waiting == None
  {
    match o
    case SttFailed => Trace.Transition(Release(s), [Log(SendFailed)])
    case SttOk(text) => Trace.Transition(s.(transcript := text, pending := ReplyCall), [SendChat(text)])
  }

  /** The reply's `chat` settled. If the hook holds a message it is played,
      with the hand-back to the avatar installed as `onended`. A failure
      plays nothing. Either way the guard is released, the waiting loop
      resumes and the turn is unchanged for now. */
  function OnReplyReturned(s: State, o: ChatOutcome): (t: Transition)
    requires s.pending == ReplyCall
    ensures !t.next.processing && t.next.pending == NoCall && t.next.turn == s.turn
    ensures t.next.waiting == None && (s.waiting.Some? ==> t.next.lastTimer == s.waiting)
    ensures o.ChatOk? && o.current.Some? ==>
      t.effects == [Play(AudioDataPrefix + o.current.value.audio)] && t.next.onEnded == Some(AfterReply)
    ensures o.ChatFailed? ==> t.effects == [Log(SendFailed)] && t.next.onEnded == s.onEnded
    ensures o.ChatOk? && o.current.None? ==> t.effects == [] && t.next.onEnded == s.onEnded
  {
    match o
    case ChatFailed => Trace.Transition(Release(s), [Log(SendFailed)])
    case ChatOk(_, None) => Trace.Transition(Release(s), [])
    case ChatOk(_, Some(m)) =>
      var p := PlayAudio(s, m.audio, AfterReply);
      Trace.Transition(Release(p.next), p.effects)
  }

  /** A settled `chat` resumes whichever call awaited it. */
  function OnChatReturned(s: State, o: ChatOutcome): Transition
  {
    match s.pending
    case GreetingCall => OnGreetingReturned(s, o)
    case ReplyCall => OnReplyReturned(s, o)
    case _ => Trace.Transition(s, [])
  }

  /** A chunk is appended to the buffer while its recorder is live. The
      recorder is started without a timeslice, so a browser delivers the
      whole recording as one chunk after `stop()`, while it is `Stopping`. */
  function OnData(s: State, c: Chunk): (t: Transition)
    ensures t.effects == []
    ensures s.recorder != Inactive ==> t.next == s.(chunks := s.chunks + [c])
    ensures s.recorder == Inactive ==> t.next == s
  {
    if s.recorder == Inactive then Trace.Transition(s, [])
    else Trace.Transition(s.(chunks := s.chunks + [c]), [])
  }

  /** `onstop`: the buffered chunks are submitted as one WAV payload, but
      only during the guest's turn. */
  function OnRecorderStopped(s: State): (t: Transition)
    ensures s.recorder != Stopping ==> t == Trace.Transition(s, [])
    ensures s.recorder == Stopping ==> t.next.recorder == Inactive
    ensures !NoSubmission(t.effects) ==> s.recorder == Stopping && s.turn == Invitee && !s.processing
    ensures s.recorder == Stopping && s.turn == Invitee && !s.processing ==>
      t.effects == [SttRequest(Payload(s.chunks), s.language)]
  {
    if s.recorder != Stopping then Trace.Transition(s, [])
    else if s.turn == Invitee then SendAudio(s.(recorder := Inactive), Payload(s.chunks))
    else Trace.Transition(s.(recorder := Inactive), [])
  }

  /** The loop's call to `stop()`: a no-op on a recorder that is not recording. */
  function StopRecorderOf(s: State): (t: Transition)
    ensures s.recorder == Recording ==> t == Trace.Transition(s.(recorder := Stopping), [StopRecorder])
    ensures s.recorder != Recording ==> t == Trace.Transition(s, [])
  {
    if s.recorder == Recording then Trace.Transition(s.(recorder := Stopping), [StopRecorder])
    else Trace.Transition(s, [])
  }

  /** `clearTimeout(silenceTimer)` run by loop `k`. The variable is shared by
      every loop and holds the timeout scheduled last; when that is another
      loop's pending poll, that loop is cancelled for good. A loop awaiting a
      submission has no pending timeout, and `k`'s own has already run. */
  function ClearTimeout(s: State, k: nat): (r: State)
    ensures |r.detectors| == |s.detectors|
    ensures forall j :: 0 <= j < |s.detectors| ==>
      r.detectors[j] == if s.lastTimer == Some(j) && j != k && s.waiting != Some(j)
                        then s.detectors[j].(cancelled := true) else s.detectors[j]
    ensures r == s.(detectors := r.detectors)
  {
    match s.lastTimer
    case Some(j) =>
      if j != k && j < |s.detectors| && s.waiting != Some(j)
      then s.(detectors := s.detectors[j := s.detectors[j].(cancelled := true)])
      else s
    case None => s
  }

  /** Loop `k` acts on silence: it clears the shared timeout, stops a live
      recorder and takes the buffered chunks. An empty payload is only
      warned about and the loop schedules its next poll; a non-empty one is
      submitted and the loop waits for the submission to settle. */
  function Act(s: State, k: nat): (t: Transition)
    requires !s.processing && k < |s.detectors|
    ensures t.effects != []
    ensures s.recorder == Recording ==> t.effects[0] == StopRecorder && t.next.recorder == Stopping
    ensures t.next.detectors == ClearTimeout(s, k).detectors
    ensures forall i :: 0 <= i < |t.effects| && t.effects[i].PostStt? ==>
      |t.effects[i].form.audio.data| > 0 && t.next.waiting == Some(k)
    ensures |Concat(s.chunks)| == 0 ==>
      t.effects == (if s.recorder == Recording then [StopRecorder] else []) + [Log(EmptyAudio)]
    ensures |Concat(s.chunks)| > 0 ==> SttRequest(Payload(s.chunks), s.language) in t.effects
    ensures t.next.turn == s.turn && t.next.onEnded == s.onEnded && t.next.chunks == s.chunks
  {
    var stopped := StopRecorderOf(ClearTimeout(s, k));
    var audio := Payload(s.chunks);
    if |audio.data| > 0 then
      var sent := SendAudio(stopped.next.(waiting := Some(k)), audio);
      Trace.Transition(sent.next, stopped.effects + sent.effects)
    else
      Trace.Transition(stopped.next.(lastTimer := Some(k)), stopped.effects + [Log(EmptyAudio)])
  }

  /** One poll of silence loop `k`. A silent frame adds 100 ms to that loop's
      counter and any other frame resets it. Once the loop has seen at least
      200 ms and no request is in flight it acts: it stops the recorder,
      clears the shared timeout, and takes the buffered chunks. An empty
      payload is only warned about; a non-empty one is submitted and the
      loop waits for the submission to settle. The counter is not cleared
      after acting, and a loop that did not wait schedules its next poll. */
  function OnPoll(s: State, k: nat, frame: seq<byte>): (t: Transition)
    ensures !Polling(s, k) ==> t == Trace.Transition(s, [])
    ensures |t.next.detectors| == |s.detectors|
    ensures Polling(s, k) ==>
      t.next.detectors[k] == Detector(if Silence.IsSilent(frame) then s.detectors[k].silenceMs + Silence.PollMs else 0, false)
    ensures t.effects != [] ==>
      Polling(s, k) && !s.processing && Silence.IsSilent(frame)
      && s.detectors[k].silenceMs + Silence.PollMs >= Silence.MinSilenceMs
      && t.next.detectors[k].silenceMs >= Silence.MinSilenceMs
    ensures (Polling(s, k) && !s.processing && Silence.IsSilent(frame)
             && s.detectors[k].silenceMs + Silence.PollMs >= Silence.MinSilenceMs) ==>
      t.effects != [] && (s.recorder == Recording ==> t.effects[0] == StopRecorder && t.next.recorder == Stopping)
    ensures forall j :: 0 <= j < |s.detectors| && j != k ==>
      t.next.detectors[j] == if t.effects != [] && s.lastTimer == Some(j) && s.waiting != Some(j)
                             then s.detectors[j].(cancelled := true) else s.detectors[j]
    ensures s.processing ==> t.effects == [] && t.next.recorder == s.recorder && t.next.pending == s.pending
    ensures forall i :: 0 <= i < |t.effects| && t.effects[i].PostStt? ==>
      |t.effects[i].form.audio.data| > 0 && t.next.waiting == Some(k)
    ensures t.effects != [] && |Concat(s.chunks)| == 0 ==>
      t.effects == (if s.recorder == Recording then [StopRecorder] else []) + [Log(EmptyAudio)]
    ensures t.effects != [] && |Concat(s.chunks)| > 0 ==>
      SttRequest(Payload(s.chunks), s.language) in t.effects
    ensures t.next.turn == s.turn && t.next.onEnded == s.onEnded && t.next.chunks == s.chunks
    ensures t.effects == [] ==>
      t.next == s.(detectors := t.next.detectors, lastTimer := if Polling(s, k) then Some(k) else s.lastTimer)
  {
    if !Polling(s, k) then Trace.Transition(s, [])
    else
      var r := Silence.Poll(s.detectors[k].silenceMs, frame, s.processing);
      var counted := s.(detectors := s.detectors[k := Detector(r.silenceMs, false)]);
      if !r.fire then Trace.Transition(counted.(lastTimer := Some(k)), [])
      else Act(counted, k)
  }

  /** The poll as evidently intended: the same, except that a loop which has
      acted stops polling, as its own `clearTimeout` suggests. */
  function OnPollIntended(s: State, k: nat, frame: seq<byte>): (t: Transition)
    ensures t.effects == OnPoll(s, k, frame).effects
    ensures t.effects == [] ==> t == OnPoll(s, k, frame)
    ensures t.effects != [] ==> k < |t.next.detectors| && t.next.detectors[k].cancelled
  {
    var p := OnPoll(s, k, frame);
    if p.effects == [] then p
    else Trace.Transition(p.next.(detectors := p.next.detectors[k := p.next.detectors[k].(cancelled := true)]), p.effects)
  }

  /** The audio element's `onended` handler: the speaking flag drops first,
      then the installed continuation runs, and `onMessagePlayed` comes last.
      After the greeting the guest gets the turn and is recorded; after a
      reply the avatar gets the turn back and the introduction runs again.
      The handler stays installed, so a replay from the element's controls
      runs it again. */
  function OnPlaybackEnded(s: State): (t: Transition)
    ensures s.onEnded.None? ==> t == Trace.Transition(s, [])
    ensures s.onEnded.Some? ==>
      |t.effects| >= 1 && t.effects[|t.effects| - 1] == MessagePlayed
      && !t.next.speaking && t.next.onEnded == s.onEnded
    ensures s.onEnded == Some(AfterGreeting) ==>
      t.next.turn == Invitee
      && (s.stream ==> t.effects == [StartRecorder, MessagePlayed] && t.next.recorder == Recording
                       && t.next.detectors == s.detectors + [Detector(0, false)])
    ensures s.onEnded == Some(AfterReply) ==>
      t.next.turn == Avatar
      && (!s.processing ==> t.effects == [SendChat(Greeting), MessagePlayed] && t.next.pending == GreetingCall)
      && (s.processing ==> t.effects == [MessagePlayed])
  {
    match s.onEnded
    case None => Trace.Transition(s, [])
    case Some(after) =>
      var ended := s.(speaking := false);
      var c :=
        match after
        case AfterGreeting => StartRecording(ended.(turn := Invitee))
        case AfterReply => Introduce(ended.(turn := Avatar));
      Trace.Transition(c.next, c.effects + [MessagePlayed])
  }

  /** The controller's reaction to one event. */
  function Step(s: State, e: Event): Transition
  {
    match e
    case Mount => OnMount(s)
    case MediaReady => Trace.Transition(s.(stream := true), [])
    case MediaDenied => Trace.Transition(s, [Log(MediaFailed)])
    case ChatReturned(o) => OnChatReturned(s, o)
    case SttReturned(o) =>
      if s.pending == SttCall then OnSttReturned(s, o) else Trace.Transition(s, [])
    case DataAvailable(c) => OnData(s, c)
    case RecorderStopped => OnRecorderStopped(s)
    case Poll(k, frame) => OnPoll(s, k, frame)
    case PlaybackEnded => OnPlaybackEnded(s)
    case SelectLanguage(l) => Trace.Transition(s.(language := l), [])
  }

  /** The reaction to a sequence of events, effects in order. */
  function Run(s: State, events: seq<Event>): Transition
  {
    Trace.Run(Step, s, events)
  }

  /** The controller as the component writes it: the same as `Step` except
      that a returning greeting keeps the guard raised. */
  function StepAsWritten(s: State, e: Event): (t: Transition)
    ensures !(e.ChatReturned? && s.pending == GreetingCall) ==> t == Step(s, e)
    ensures e.ChatReturned? && s.pending == GreetingCall ==>
      t.effects == Step(s, e).effects && t.next.(processing := false) == Step(s, e).next
  {
    if e.ChatReturned? && s.pending == GreetingCall then GreetingReturnedAsWritten(s, e.chat)
    else Step(s, e)
  }

  /** A poll neither asks for media nor touches the mount guard. */
  lemma PollMountsNothing(s: State, k: nat, frame: seq<byte>)
    ensures OnPoll(s, k, frame).next.initDone == s.initDone
    ensures NoMediaRequest(OnPoll(s, k, frame).effects)
  {
    if Polling(s, k) {
      var r := Silence.Poll(s.detectors[k].silenceMs, frame, s.processing);
      if r.fire {
        var counted := s.(detectors := s.detectors[k := Detector(r.silenceMs, false)]);
        var stopped := StopRecorderOf(ClearTimeout(counted, k));
        assert NoMediaRequest(stopped.effects);
      }
    }
  }

  /** A settled `chat` neither asks for media nor touches the mount guard. */
  lemma ChatReturnedMountsNothing(s: State, o: ChatOutcome)
    ensures OnChatReturned(s, o).next.initDone == s.initDone
    ensures NoMediaRequest(OnChatReturned(s, o).effects)
  {
  }

  /** Only the first mount asks for media, and only the mount sets the guard. */
  lemma StepMountsOnce(s: State, e: Event)
    ensures Step(s, e).next.initDone == (s.initDone || e.Mount?)
    ensures !(e.Mount? && !s.initDone) ==> NoMediaRequest(Step(s, e).effects)
    ensures e.Mount? && !s.initDone ==> |Step(s, e).effects| >= 1 && NoMediaRequest(Step(s, e).effects[1..])
  {
    match e
    case Poll(k, frame) => PollMountsNothing(s, k, frame);
    case ChatReturned(o) => ChatReturnedMountsNothing(s, o);
    case _ =>
  }

  /** Camera and microphone are requested at most once over any trace, by
      the corrected controller and by the component as written. */
  lemma MediaRequestedAtMostOnce(s: State, events: seq<Event>)
    ensures MediaRequests(Run(s, events).effects) <= if s.initDone then 0 else 1
    ensures MediaRequests(Trace.Run(StepAsWritten, s, events).effects) <= if s.initDone then 0 else 1
  {
    forall s': State, e: Event
      ensures Step(s', e).next.initDone == (s'.initDone || e.Mount?)
      ensures !(e.Mount? && !s'.initDone) ==> NoMediaRequest(Step(s', e).effects)
      ensures e.Mount? && !s'.initDone ==> |Step(s', e).effects| >= 1 && NoMediaRequest(Step(s', e).effects[1..])
    {
      StepMountsOnce(s', e);
    }
    AtMostOneMediaRequest(Step, (s: State) => s.initDone, (e: Event) => e.Mount?, s, events);
    AtMostOneMediaRequest(StepAsWritten, (s: State) => s.initDone, (e: Event) => e.Mount?, s, events);
  }

  lemma PollPreservesInv(s: State, k: nat, frame: seq<byte>)
    requires InvAsWritten(s)
    ensures InvAsWritten(OnPoll(s, k, frame).next)
    ensures Inv(s) ==> Inv(OnPoll(s, k, frame).next)
  {
    var t := OnPoll(s, k, frame);
    if Polling(s, k) {
      var r := Silence.Poll(s.detectors[k].silenceMs, frame, s.processing);
      assert r.silenceMs % Silence.PollMs == 0;
      assert forall j :: 0 <= j < |t.next.detectors| ==> t.next.detectors[j].silenceMs % Silence.PollMs == 0;
    }
  }

  lemma PlaybackEndedPreservesInv(s: State)
    requires InvAsWritten(s)
    ensures InvAsWritten(OnPlaybackEnded(s).next)
    ensures Inv(s) ==> Inv(OnPlaybackEnded(s).next)
  {
    var t := OnPlaybackEnded(s);
    if s.onEnded == Some(AfterGreeting) && s.stream {
      assert forall j :: 0 <= j < |s.detectors| ==> t.next.detectors[j] == s.detectors[j];
    }
  }

  lemma ChatReturnedPreservesInv(s: State, o: ChatOutcome)
    requires InvAsWritten(s)
    ensures InvAsWritten(OnChatReturned(s, o).next)
    ensures s.pending == GreetingCall ==> InvAsWritten(GreetingReturnedAsWritten(s, o).next)
    ensures Inv(s) ==> Inv(OnChatReturned(s, o).next)
  {
    if s.pending == GreetingCall {
      assert GreetingReturnedAsWritten(s, o).next.(processing := false) == OnGreetingReturned(s, o).next;
    }
  }

  /** Every event preserves the invariant. */
  lemma StepPreservesInv(s: State, e: Event)
    requires Inv(s)
    ensures Inv(Step(s, e).next)
  {
    match e
    case Poll(k, frame) => PollPreservesInv(s, k, frame);
    case PlaybackEnded => PlaybackEndedPreservesInv(s);
    case ChatReturned(o) => ChatReturnedPreservesInv(s, o);
    case _ =>
  }

  lemma RunPreservesInv(s: State, events: seq<Event>)
    requires Inv(s)
    ensures Inv(Run(s, events).next)
  {
    forall s': State, e: Event | Inv(s') ensures Inv(Step(s', e).next) {
      StepPreservesInv(s', e);
    }
    Trace.RunPreserves(Step, x => Inv(x), s, events);
  }

  /** The component as written keeps the weaker invariant on every event. */
  lemma StepAsWrittenPreservesInv(s: State, e: Event)
    requires InvAsWritten(s)
    ensures InvAsWritten(StepAsWritten(s, e).next)
  {
    match e
    case Poll(k, frame) => PollPreservesInv(s, k, frame);
    case PlaybackEnded => PlaybackEndedPreservesInv(s);
    case ChatReturned(o) => ChatReturnedPreservesInv(s, o);
    case _ =>
  }

  lemma RunAsWrittenPreservesInv(s: State, events: seq<Event>)
    requires InvAsWritten(s)
    ensures InvAsWritten(Trace.Run(StepAsWritten, s, events).next)
  {
    forall s': State, e: Event | InvAsWritten(s') ensures InvAsWritten(StepAsWritten(s', e).next) {
      StepAsWrittenPreservesInv(s', e);
    }
    Trace.RunPreserves(StepAsWritten, x => InvAsWritten(x), s, events);
  }

  /** When the silence path has submitted, the `onstop` that follows the
      recorder's stop is rejected by the guard: one recording, one submission. */
  lemma DuplicateStopIsRejected(s: State, k: nat, frame: seq<byte>)
    requires !NoSubmission(OnPoll(s, k, frame).effects)
    ensures var s1 := OnPoll(s, k, frame).next;
      s1.processing && s1.recorder != Recording
      && NoSubmission(OnRecorderStopped(s1).effects)
  {
  }

  /** The shared timeout: when a loop acts while the loop that scheduled
      last is another one still polling, that other loop is cancelled and
      no later poll of it does anything. */
  lemma ActingLoopCancelsLastScheduled(s: State, k: nat, j: nat, frame: seq<byte>, later: seq<byte>)
    requires Polling(s, k) && Polling(s, j) && j != k && s.lastTimer == Some(j)
    requires !s.processing && Silence.IsSilent(frame)
    requires s.detectors[k].silenceMs + Silence.PollMs >= Silence.MinSilenceMs
    ensures var s1 := OnPoll(s, k, frame).next;
      s1.detectors[j].cancelled && OnPoll(s1, j, later) == Trace.Transition(s1, [])
  {
  }

  /** The loop is not re-armed after it acts: once the guard drops, the next
      silent poll of the same loop submits the chunks still in the buffer
      again, even when the recorder has long stopped. */
  lemma StaleLoopResubmits(s: State, k: nat, frame: seq<byte>)
    requires Polling(s, k)
    requires s.detectors[k].silenceMs >= Silence.MinSilenceMs
    requires !s.processing && s.recorder == Inactive
    requires Silence.IsSilent(frame) && |Concat(s.chunks)| > 0
    ensures OnPoll(s, k, frame).effects == [SttRequest(Payload(s.chunks), s.language)]
  {
  }

  /** With the intended poll a loop acts at most once: whatever frame comes
      next, its next poll does nothing. */
  lemma IntendedLoopActsOnce(s: State, k: nat, f1: seq<byte>, f2: seq<byte>)
    requires OnPollIntended(s, k, f1).effects != []
    ensures var s1 := OnPollIntended(s, k, f1).next;
      OnPollIntended(s1, k, f2) == Trace.Transition(s1, [])
  {
  }

  /** The state after the mount effect ran and the stream arrived. */
  function Opened(): (s: State)
    ensures Inv(s) && s == Init.(initDone := true, stream := true, processing := true, pending := GreetingCall)
  {
    Step(Step(Init, Mount).next, MediaReady).next
  }

  /** Opening of a session: the greeting's first message plays, and when it
      ends the guest gets the turn, recording starts and one silence loop runs. */
  lemma GreetingPlaybackOpensGuestTurn(m: Message)
    ensures var s1 := OnGreetingReturned(Opened(), ChatOk(Messages([m]), None));
      var s2 := OnPlaybackEnded(s1.next);
      s1.effects == [Play(AudioDataPrefix + m.audio)]
      && s2.effects == [StartRecorder, MessagePlayed]
      && s2.next.turn == Invitee && s2.next.recorder == Recording
      && s2.next.detectors == [Detector(0, false)] && !s2.next.processing && Inv(s2.next)
  {
    var s1 := OnGreetingReturned(Opened(), ChatOk(Messages([m]), None));
    PlaybackEndedPreservesInv(s1.next);
  }

  /** The element keeps its `onended` handler, so replaying the greeting
      from the controls starts another recorder and another silence loop. */
  lemma ReplayRestartsRecording(s: State)
    requires s.onEnded == Some(AfterGreeting) && s.stream
    ensures var t1 := OnPlaybackEnded(s);
      var t2 := OnPlaybackEnded(t1.next);
      t1.effects == t2.effects == [StartRecorder, MessagePlayed]
      && t2.next.detectors == s.detectors + [Detector(0, false), Detector(0, false)]
  {
  }

  /** The first guest answer, in the order a browser produces it: the second
      silent poll stops the recorder but finds the buffer still empty and
      only warns; the recording arrives as one chunk while the recorder
      stops; `onstop` then submits it in the default language. */
  lemma SilenceStopsThenOnstopSubmits(m: Message, c: Chunk, f1: seq<byte>, f2: seq<byte>)
    requires Silence.IsSilent(f1) && Silence.IsSilent(f2)
    ensures var s2 := OnPlaybackEnded(OnGreetingReturned(Opened(), ChatOk(Messages([m]), None)).next).next;
      var p1 := OnPoll(s2, 0, f1);
      var p2 := OnPoll(p1.next, 0, f2);
      var d := OnData(p2.next, c);
      var o := OnRecorderStopped(d.next);
      p1.effects == [] && p2.effects == [StopRecorder, Log(EmptyAudio)] && p2.next.recorder == Stopping
      && o.effects == [SttRequest(Payload([c]), DefaultLanguage)] && o.next.processing
      && o.next.detectors == [Detector(200, false)]
  {
    var s2 := OnPlaybackEnded(OnGreetingReturned(Opened(), ChatOk(Messages([m]), None)).next).next;
    assert s2.chunks == [] && s2.recorder == Recording && s2.detectors == [Detector(0, false)];
    assert !s2.processing && s2.waiting == None && s2.language == DefaultLanguage;
    var p1 := OnPoll(s2, 0, f1);
    assert p1.effects == [] && p1.next == s2.(detectors := [Detector(100, false)], lastTimer := Some(0));
    assert Concat([]) == [];
    var p2 := OnPoll(p1.next, 0, f2);
    assert p2.effects == [StopRecorder, Log(EmptyAudio)] && p2.next.recorder == Stopping;
    assert !p2.next.processing && p2.next.chunks == [] && p2.next.detectors == [Detector(200, false)];
    var d := OnData(p2.next, c);
    assert d.next == p2.next.(chunks := [c]);
  }

  /** True when every event of `events` is a silence poll or a recorder chunk:
      the guest is speaking or pausing and nothing else happens. */
  predicate ListeningOnly(events: seq<Event>)
  {
    forall i :: 0 <= i < |events| ==> events[i].Poll? || events[i].DataAvailable?
  }

  /** While the guard is raised, polls and chunks never stop the recorder,
      never submit and never lower the guard. */
  lemma {:induction false} ListeningWhileProcessingIsInert(s: State, events: seq<Event>)
    requires s.processing && ListeningOnly(events)
    ensures var r := Run(s, events);
      r.effects == [] && r.next.processing && r.next.recorder == s.recorder
      && r.next.pending == s.pending && r.next.turn == s.turn
    decreases |events|
  {
    if |events| > 0 {
      var t := Step(s, events[0]);
      assert t.effects == [] && t.next.processing && t.next.recorder == s.recorder
        && t.next.pending == s.pending && t.next.turn == s.turn;
      ListeningWhileProcessingIsInert(t.next, events[1..]);
    }
  }

  /** As written, the guard stays raised after the greeting, so once the
      guest's turn has begun no sequence of polls can stop the recording or
      submit the answer. */
  lemma AsWrittenGreetingSilencesDetector(m: Message, events: seq<Event>)
    requires ListeningOnly(events)
    ensures var s1 := GreetingReturnedAsWritten(Opened(), ChatOk(Messages([m]), None)).next;
      var s2 := OnPlaybackEnded(s1).next;
      var r := Run(s2, events);
      s2.processing && s2.pending == NoCall && s2.recorder == Recording && !Inv(s2)
      && r.effects == [] && r.next.recorder == Recording && r.next.processing
  {
    var s1 := GreetingReturnedAsWritten(Opened(), ChatOk(Messages([m]), None)).next;
    ListeningWhileProcessingIsInert(OnPlaybackEnded(s1).next, events);
  }
}

=== FILE: timed_podcast.dfy ===
/** The timer-driven turn-taking controller: the avatar greets, then every
    guest turn is a recording cut off after ten one-second ticks, whose audio
    is transcribed and sent to the conversation engine before the next
    recording starts. */
module TimedPodcast {
  import opened Media
  import opened Conversation
  import Countdown
  import Trace

  /** The controller's state. React state and the component's local
      variables are plain fields here, updated in program order. */
  datatype State = State(
    initDone: bool,          // the mount guard has run
    stream: bool,            // the microphone stream has arrived
    turn: Turn,
    processing: bool,        // the re-entrancy guard
    language: Language,
    transcript: string,      // last transcript shown to the user
    pending: Call,           // the request being awaited
    recorder: Recorder,
    chunks: seq<Chunk>,      // the current recording's chunk buffer
    timer: Countdown.Timer)  // the displayed countdown and its interval

  /** The state on first render. */
  const Init: State :=
    State(false, false, Avatar, false, DefaultLanguage, "", NoCall, Inactive, [], Countdown.Idle)

  /** Everything that can call back into the controller. */
  datatype Event =
    | Mount                           // the mount effect runs
    | MediaReady                      // the microphone request resolved
    | MediaDenied                     // the microphone request was rejected
    | ChatReturned(chat: ChatOutcome) // an awaited `chat` settled
    | SttReturned(stt: SttOutcome)    // the awaited transcription POST settled
    | DataAvailable(chunk: Chunk)     // the recorder delivered a chunk
    | RecorderStopped                 // the recorder's `onstop` fires
    | Tick                            // the countdown interval fires
    | SelectLanguage(choice: Language)

  type Transition = Trace.Transition<State, Effect>

  /** Every effect of `t` comes after the effects `before`. */
  function Prepend(before: seq<Effect>, t: Transition): Transition
  {
    Trace.Transition(t.next, before + t.effects)
  }

  /** What the component as written keeps: the countdown is live exactly
      while recording, and an outstanding request holds the guard with no
      recorder live. The guard may stay raised with nothing outstanding. */
  ghost predicate InvAsWritten(s: State)
  {
    && Countdown.Valid(s.timer)
    && (s.timer.armed <==> s.recorder == Recording)
    && (s.pending != NoCall ==> s.processing && s.recorder == Inactive)
    && (!s.initDone ==> !s.processing && s.pending == NoCall && s.recorder == Inactive)
  }

  /** Ties the guard flag, the outstanding request, the recorder and the
      countdown together: in addition, the guard is raised only while a
      request is outstanding. */
  ghost predicate Inv(s: State)
  {
    && InvAsWritten(s)
    && (s.processing ==> s.pending != NoCall)
  }

  /** The mount effect: acquire the microphone and greet, once per session. */
  function OnMount(s: State): (t: Transition)
    ensures s.initDone ==> t == Trace.Transition(s, [])
    ensures !s.initDone ==> t.next.initDone && |t.effects| >= 1 && t.effects[0] == RequestMedia(false)
    ensures !s.initDone && !s.processing && s.turn == Avatar ==>
      t.effects == [RequestMedia(false), SendChat(Greeting)] && t.next.processing
  {
    if s.initDone then Trace.Transition(s, [])
    else Prepend([RequestMedia(false)], Introduce(s.(initDone := true)))
  }

  /** The microphone was granted. The stream is stored, but the next
      statement writes to an audio element that is never rendered and
      throws, so the same catch that reports a denied microphone runs. */
  function OnMediaReady(s: State): (t: Transition)
    ensures t.next.stream && t.next.(stream := s.stream) == s
    ensures t.effects == [Log(MediaFailed)]
  {
    Trace.Transition(s.(stream := true), [Log(MediaFailed)])
  }

  /** The grant as evidently intended: the stream is stored and nothing is
      reported. */
  function OnMediaReadyIntended(s: State): (t: Transition)
    ensures t.next == OnMediaReady(s).next
    ensures t.effects == []
  {
    Trace.Transition(s.(stream := true), [])
  }

  /** The avatar's introduction: send the greeting unless a request is in
      flight or it is not the avatar's turn. */
  function Introduce(s: State): (t: Transition)
    ensures t.effects == [] ==> t.next == s
    ensures t.effects != [] <==> !s.processing && s.turn == Avatar
    ensures t.effects != [] ==>
      t.effects == [SendChat(Greeting)] && t.next.processing && t.next.pending == GreetingCall
      && t.next.turn == s.turn && t.next.recorder == s.recorder && t.next.chunks == s.chunks
  {
    if s.processing || s.turn != Avatar then Trace.Transition(s, [])
    else Trace.Transition(s.(processing := true, pending := GreetingCall), [SendChat(Greeting)])
  }

  /** Start a recording: with no stream report an error and change nothing;
      otherwise empty the chunk buffer, start the recorder and arm a fresh
      ten-second countdown. */
  function StartRecording(s: State): (t: Transition)
    ensures !s.stream ==> t == Trace.Transition(s, [Log(NoStream)])
    ensures s.stream ==>
      t.effects == [StartRecorder] && t.next.recorder == Recording && t.next.chunks == []
      && t.next.timer == Countdown.Armed && t.next.timer.count == Countdown.TurnSeconds
    ensures t.next.turn == s.turn && t.next.processing == s.processing && t.next.pending == s.pending
  {
    if !s.stream then Trace.Transition(s, [Log(NoStream)])
    else Trace.Transition(s.(recorder := Recording, chunks := [], timer := Countdown.Armed), [StartRecorder])
  }

  /** The greeting's `chat` settled. `response.length` on an undefined reply
      throws, which lands in the same catch as a failed call. A non-empty
      reply hands the turn to the guest and starts recording; an empty one
      changes neither. Once the call has settled the guard is released. */
  function OnGreetingReturned(s: State, o: ChatOutcome): (t: Transition)
    requires s.pending == GreetingCall
    ensures !t.next.processing && t.next.pending == NoCall
    ensures (o.ChatFailed? || o.response.Undefined?) ==>
      t.effects == [Log(IntroFailed)] && t.next.turn == s.turn && t.next.recorder == s.recorder
    ensures o.ChatOk? && o.response.Messages? && |o.response.list| > 0 ==>
      t.next.turn == Invitee && (s.stream ==> t.next.recorder == Recording && t.effects == [StartRecorder])
    ensures o.ChatOk? && o.response.Messages? && |o.response.list| == 0 ==>
      t.effects == [] && t.next.turn == s.turn && t.next.recorder == s.recorder
  {
    var released := s.(processing := false, pending := NoCall);
    match o
    case ChatFailed => Trace.Transition(released, [Log(IntroFailed)])
    case ChatOk(Undefined, _) => Trace.Transition(released, [Log(IntroFailed)])
    case ChatOk(Messages(list), _) =>
      if |list| > 0 then StartRecording(released.(turn := Invitee))
      else Trace.Transition(released, [])
  }

  /** The greeting's continuation exactly as the component writes it: the
      guard is released only when the call throws. */
  function GreetingReturnedAsWritten(s: State, o: ChatOutcome): (t: Transition)
    requires s.pending == GreetingCall
    ensures t.next.pending == NoCall
    ensures t.next.processing <==> s.processing && !(o.ChatFailed? || o.response.Undefined?)
    ensures t.effects == OnGreetingReturned(s, o).effects
    ensures t.next.(processing := false) == OnGreetingReturned(s, o).next
  {
    var settled := s.(pending := NoCall);
    match o
    case ChatFailed => Trace.Transition(settled.(processing := false), [Log(IntroFailed)])
    case ChatOk(Undefined, _) => Trace.Transition(settled.(processing := false), [Log(IntroFailed)])
    case ChatOk(Messages(list), _) =>
      if |list| > 0 then StartRecording(settled.(turn := Invitee))
      else Trace.Transition(settled, [])
  }

  /** `sendAudioToBackend`: ignored while a request is in flight; otherwise
      raise the guard and post the audio with the selected language. */
  function SendAudio(s: State, audio: Blob): (t: Transition)
    ensures s.processing ==> t == Trace.Transition(s, [])
    ensures !s.processing ==>
      t.effects == [SttRequest(audio, s.language)] && t.next.processing && t.next.pending == SttCall
      && t.next.turn == s.turn && t.next.recorder == s.recorder
  {
    if s.processing then Trace.Transition(s, [])
    else Trace.Transition(s.(processing := true, pending := SttCall), [SttRequest(audio, s.language)])
  }

  /** The transcription settled: pass the transcript to `chat` unchanged
      (the empty string included), or give up and release the guard. */
  function OnSttReturned(s: State, o: SttOutcome): (t: Transition)
    requires s.pending == SttCall
    ensures o.SttOk? ==>
      t.effects == [SendChat(o.transcript)] && t.next.transcript == o.transcript
      && t.next.pending == ReplyCall && t.next.processing == s.processing
    ensures o.SttFailed? ==>
      t.effects == [Log(SendFailed)] && !t.next.processing
      && t.next.pending == NoCall && t.next.turn == s.turn && t.next.recorder == s.recorder
  {
    match o
    case SttFailed => Trace.Transition(s.(processing := false, pending := NoCall), [Log(SendFailed)])
    case SttOk(text) => Trace.Transition(s.(transcript := text, pending := ReplyCall), [SendChat(text)])
  }

  /** The reply's `chat` settled. Any defined reply, even an empty array,
      hands the turn to the guest and records again; a failure or an
      undefined reply starts nothing. Either way the guard is released. */
  function OnReplyReturned(s: State, o: ChatOutcome): (t: Transition)
    requires s.pending == ReplyCall
    ensures !t.next.processing && t.next.pending == NoCall
    ensures o.ChatOk? && o.response.Messages? ==>
      t.next.turn == Invitee && (s.stream ==> t.next.recorder == Recording && t.effects == [StartRecorder])
    ensures !(o.ChatOk? && o.response.Messages?) ==>
      StartRecorder !in t.effects && t.next.turn == s.turn && t.next.recorder == s.recorder
  {
    var released := s.(processing := false, pending := NoCall);
    match o
    case ChatFailed => Trace.Transition(released, [Log(SendFailed)])
    case ChatOk(Undefined, _) => Trace.Transition(released, [])
    case ChatOk(Messages(_), _) => StartRecording(released.(turn := Invitee))
  }

  /** A settled `chat` resumes whichever call awaited it. */
  function OnChatReturned(s: State, o: ChatOutcome): Transition
  {
    match s.pending
    case GreetingCall => OnGreetingReturned(s, o)
    case ReplyCall => OnReplyReturned(s, o)
    case _ => Trace.Transition(s, [])
  }

  /** A chunk is appended to the buffer while its recorder is live. */
  function OnData(s: State, c: Chunk): (t: Transition)
    ensures t.effects == []
    ensures s.recorder != Inactive ==> t.next.chunks == s.chunks + [c]
    ensures s.recorder == Inactive ==> t.next == s
  {
    if s.recorder == Inactive then Trace.Transition(s, [])
    else Trace.Transition(s.(chunks := s.chunks + [c]), [])
  }

  /** `onstop`: whatever the turn, the buffered chunks are submitted as one
      WAV payload. */
  function OnRecorderStopped(s: State): (t: Transition)
    ensures s.recorder != Stopping ==> t == Trace.Transition(s, [])
    ensures s.recorder == Stopping ==> t.next.recorder == Inactive
    ensures s.recorder == Stopping && !s.processing ==>
      t.effects == [SttRequest(Payload(s.chunks), s.language)]
    ensures s.processing ==> NoSubmission(t.effects)
  {
    if s.recorder != Stopping then Trace.Transition(s, [])
    else SendAudio(s.(recorder := Inactive), Payload(s.chunks))
  }

  /** One countdown tick: decrease the display, and on the tick that sees
      one clear the interval and stop the recorder. */
  function OnTick(s: State): (t: Transition)
    ensures !s.timer.armed ==> t == Trace.Transition(s, [])
    ensures s.timer.armed ==> t.next.timer.count == s.timer.count - 1
    ensures StopRecorder in t.effects <==> s.timer.armed && s.timer.count == 1 && s.recorder == Recording
    ensures t.next.processing == s.processing && t.next.chunks == s.chunks && NoSubmission(t.effects)
  {
    var r := Countdown.Tick(s.timer);
    if !r.expired then Trace.Transition(s.(timer := r.timer), [])
    else if s.recorder == Recording then
      Trace.Transition(s.(timer := r.timer, turn := Invitee, recorder := Stopping), [StopRecorder])
    else Trace.Transition(s.(timer := r.timer, turn := Invitee), [])
  }

  /** The controller's reaction to one event. Only the first mount asks for
      the microphone, and only the mount sets the mount guard. */
  function Step(s: State, e: Event): (t: Transition)
    ensures t.next.initDone == (s.initDone || e.Mount?)
    ensures !(e.Mount? && !s.initDone) ==> NoMediaRequest(t.effects)
    ensures e.Mount? && !s.initDone ==>
      |t.effects| >= 1 && t.effects[0] == RequestMedia(false) && NoMediaRequest(t.effects[1..])
  {
    match e
    case Mount => OnMount(s)
    case MediaReady => OnMediaReady(s)
    case MediaDenied => Trace.Transition(s, [Log(MediaFailed)])
    case ChatReturned(o) => OnChatReturned(s, o)
    case SttReturned(o) =>
      if s.pending == SttCall then OnSttReturned(s, o) else Trace.Transition(s, [])
    case DataAvailable(c) => OnData(s, c)
    case RecorderStopped => OnRecorderStopped(s)
    case Tick => OnTick(s)
    case SelectLanguage(l) => Trace.Transition(s.(language := l), [])
  }

  /** The reaction to a sequence of events, effects in order. */
  function Run(s: State, events: seq<Event>): Transition
  {
    Trace.Run(Step, s, events)
  }

  /** Every event preserves the invariant. */
  lemma StepPreservesInv(s: State, e: Event)
    requires Inv(s)
    ensures Inv(Step(s, e).next)
  {
  }

  lemma RunPreservesInv(s: State, events: seq<Event>)
    requires Inv(s)
    ensures Inv(Run(s, events).next)
  {
    forall s': State, e: Event | Inv(s') ensures Inv(Step(s', e).next) {
      StepPreservesInv(s', e);
    }
    Trace.RunPreserves(Step, x => Inv(x), s, events);
  }

  /** A recording only starts when no recorder and no countdown are live, so
      a new interval never overlaps an old one. */
  lemma NoOverlappingCountdowns(s: State, e: Event)
    requires Inv(s)
    requires StartRecorder in Step(s, e).effects
    ensures s.recorder == Inactive && !s.timer.armed
  {
  }

  /** The controller as the component writes it: the same as `Step` except
      that a returning greeting keeps the guard raised. */
  function StepAsWritten(s: State, e: Event): (t: Transition)
    ensures !(e.ChatReturned? && s.pending == GreetingCall) ==> t == Step(s, e)
    ensures e.ChatReturned? && s.pending == GreetingCall ==>
      t.effects == Step(s, e).effects && t.next.(processing := false) == Step(s, e).next
  {
    if e.ChatReturned? && s.pending == GreetingCall then GreetingReturnedAsWritten(s, e.chat)
    else Step(s, e)
  }

  /** The component as written keeps the weaker invariant on every event. */
  lemma StepAsWrittenPreservesInv(s: State, e: Event)
    requires InvAsWritten(s)
    ensures InvAsWritten(StepAsWritten(s, e).next)
  {
  }

  lemma RunAsWrittenPreservesInv(s: State, events: seq<Event>)
    requires InvAsWritten(s)
    ensures InvAsWritten(Trace.Run(StepAsWritten, s, events).next)
  {
    forall s': State, e: Event | InvAsWritten(s') ensures InvAsWritten(StepAsWritten(s', e).next) {
      StepAsWrittenPreservesInv(s', e);
    }
    Trace.RunPreserves(StepAsWritten, x => InvAsWritten(x), s, events);
  }

  /** Even with the guard stuck, a recording only starts when no recorder
      and no countdown are live. */
  lemma AsWrittenNoOverlappingCountdowns(s: State, e: Event)
    requires InvAsWritten(s)
    requires StartRecorder in StepAsWritten(s, e).effects
    ensures s.recorder == Inactive && !s.timer.armed
  {
  }

  /** Both step functions set the mount guard only on mount and ask for the
      microphone only at the head of the first mount's effects. */
  lemma StepsMountOnce()
    ensures MountsOnce(Step, (s: State) => s.initDone, (e: Event) => e.Mount?)
    ensures MountsOnce(StepAsWritten, (s: State) => s.initDone, (e: Event) => e.Mount?)
  {
  }

  /** The mount-time work happens once: whatever the events, the microphone
      is requested at most once, and never again after the guard is set. */
  lemma MediaRequestedAtMostOnce(s: State, events: seq<Event>)
    ensures MediaRequests(Run(s, events).effects) <= if s.initDone then 0 else 1
  {
    StepsMountOnce();
    AtMostOneMediaRequest(Step, (s: State) => s.initDone, (e: Event) => e.Mount?, s, events);
  }

  /** The same holds of the component as written. */
  lemma AsWrittenMediaRequestedAtMostOnce(s: State, events: seq<Event>)
    ensures MediaRequests(Trace.Run(StepAsWritten, s, events).effects) <= if s.initDone then 0 else 1
  {
    StepsMountOnce();
    AtMostOneMediaRequest(StepAsWritten, (s: State) => s.initDone, (e: Event) => e.Mount?, s, events);
  }

  /** A granted microphone is reported exactly like a denied one: both
      events produce the same console report, though only the grant stores
      the stream. The intended handler reports nothing. */
  lemma GrantReportedLikeDenial(s: State)
    ensures Step(s, MediaReady).effects == Step(s, MediaDenied).effects == [Log(MediaFailed)]
    ensures Step(s, MediaReady).next.stream
    ensures OnMediaReadyIntended(s).effects != Step(s, MediaDenied).effects
  {
  }

  /** `n` countdown ticks. */
  function Ticks(n: nat): (es: seq<Event>)
    ensures |es| == n && forall i :: 0 <= i < n ==> es[i] == Tick
  {
    seq(n, _ => Tick)
  }

  /** While a recording runs with the display at `c`, the first `c - 1`
      ticks only count down, and tick `c` stops the recorder: exactly one
      stop, the display at 0, and no later tick does anything. */
  lemma {:induction false} TicksStopOnce(s: State, c: int, n: nat)
    requires 1 <= c && s.timer == Countdown.Timer(c, true) && s.recorder == Recording
    ensures var r := Run(s, Ticks(n));
      if n < c then
        r.effects == [] && r.next == s.(timer := Countdown.Timer(c - n, true))
      else
        r.effects == [StopRecorder]
        && r.next == s.(timer := Countdown.Timer(0, false), turn := Invitee, recorder := Stopping)
    decreases n
  {
    if n > 0 {
      assert Ticks(n)[1..] == Ticks(n - 1);
      var t := Step(s, Tick);
      if c == 1 {
        assert t.effects == [StopRecorder];
        AfterStopTicksAreInert(t.next, n - 1);
      } else {
        TicksStopOnce(t.next, c - 1, n - 1);
      }
    }
  }

  lemma {:induction false} AfterStopTicksAreInert(s: State, n: nat)
    requires !s.timer.armed
    ensures Run(s, Ticks(n)) == Trace.Transition(s, [])
    decreases n
  {
    if n > 0 {
      assert Ticks(n)[1..] == Ticks(n - 1);
      AfterStopTicksAreInert(s, n - 1);
    }
  }

  /** A freshly started recording is stopped by its tenth tick and by no other. */
  lemma TurnEndsAfterTenTicks(s: State, n: nat)
    requires s.stream
    ensures var r := Run(StartRecording(s).next, Ticks(n));
      (n < Countdown.TurnSeconds ==> r.effects == [] && r.next.timer.count == Countdown.TurnSeconds - n)
      && (n >= Countdown.TurnSeconds ==> r.effects == [StopRecorder] && r.next.timer.count == 0)
  {
    TicksStopOnce(StartRecording(s).next, Countdown.TurnSeconds, n);
  }

  /** Opening of a session: the greeting is sent, a one-message reply hands
      the turn to the guest, and the countdown shows 10. */
  lemma GreetingOpensGuestTurn(m: Message)
    ensures var r := Run(Init, [Mount, MediaReady, ChatReturned(ChatOk(Messages([m]), None))]);
      r.effects == [RequestMedia(false), SendChat(Greeting), Log(MediaFailed), StartRecorder]
      && r.next.turn == Invitee && r.next.recorder == Recording
      && r.next.timer.count == 10 && !r.next.processing
  {
    var o := ChatOk(Messages([m]), None);
    var t1 := Step(Init, Mount);
    var t2 := Step(t1.next, MediaReady);
    var t3 := Step(t2.next, ChatReturned(o));
    Trace.RunCons(Step, t2.next, ChatReturned(o), []);
    Trace.RunCons(Step, t1.next, MediaReady, [ChatReturned(o)]);
    Trace.RunCons(Step, Init, Mount, [MediaReady, ChatReturned(o)]);
    assert [Mount, MediaReady, ChatReturned(o)] == [Mount] + ([MediaReady] + [ChatReturned(o)]);
  }

  /** The state after the mount effect ran and the microphone arrived. */
  function Opened(): (s: State)
    ensures Inv(s) && s == Init.(initDone := true, stream := true, processing := true, pending := GreetingCall)
  {
    Step(Step(Init, Mount).next, MediaReady).next
  }

  /** As written, a successful greeting keeps the guard raised with nothing
      outstanding to lower it, so the guest's first answer is dropped: ten
      or more ticks stop the recorder once, the answer's chunk arrives after
      the stop, and `onstop` then submits nothing. */
  lemma AsWrittenGreetingDropsFirstAnswer(m: Message, n: nat, c: Chunk)
    requires n >= Countdown.TurnSeconds
    ensures var s2 := GreetingReturnedAsWritten(Opened(), ChatOk(Messages([m]), None)).next;
      var r := Run(s2, Ticks(n));
      var d := OnData(r.next, c);
      s2.processing && s2.pending == NoCall && !Inv(s2)
      && r.effects == [StopRecorder] && r.next.recorder == Stopping && d.next.chunks == [c]
      && OnRecorderStopped(d.next).effects == [] && OnRecorderStopped(d.next).next.processing
  {
    var s2 := GreetingReturnedAsWritten(Opened(), ChatOk(Messages([m]), None)).next;
    assert s2 == Opened().(pending := NoCall, turn := Invitee, recorder := Recording, timer := Countdown.Armed);
    TicksStopOnce(s2, 10, n);
  }

  /** The corrected greeting releases the guard, so the same answer, its
      chunk delivered after the stop, is submitted in full. */
  lemma CorrectedGreetingSubmitsFirstAnswer(m: Message, n: nat, c: Chunk)
    requires n >= Countdown.TurnSeconds
    ensures var s2 := OnGreetingReturned(Opened(), ChatOk(Messages([m]), None)).next;
      var r := Run(s2, Ticks(n));
      var d := OnData(r.next, c);
      Inv(s2) && r.effects == [StopRecorder] && r.next.recorder == Stopping
      && OnRecorderStopped(d.next).effects == [SttRequest(Payload([c]), DefaultLanguage)]
      && OnRecorderStopped(d.next).next.pending == SttCall
  {
    var s2 := OnGreetingReturned(Opened(), ChatOk(Messages([m]), None)).next;
    assert s2 == Opened().(processing := false, pending := NoCall, turn := Invitee, recorder := Recording,
                           timer := Countdown.Armed);
    TicksStopOnce(s2, 10, n);
  }
}

=== FILE: trace.dfy ===
/** Event-driven state machines in general: one step maps a state and an
    event to the next state and the effects it asks for, and a trace of
    events is handled one step after another. */
module Trace {

  datatype Transition<S, X> = Transition(next: S, effects: seq<X>)

  /** Handles `events` in order; the effects come out in the same order. */
  function Run<S, E, X>(step: (S, E) -> Transition<S, X>, s: S, events: seq<E>): Transition<S, X>
    decreases |events|
  {
    if |events| == 0 then Transition(s, [])
    else
      var t := step(s, events[0]);
      var rest := Run(step, t.next, events[1..]);
      Transition(rest.next, t.effects + rest.effects)
  }

  /** One event, then the rest. */
  lemma RunCons<S, E, X>(step: (S, E) -> Transition<S, X>, s: S, e: E, rest: seq<E>)
    ensures Run(step, s, [e] + rest).next == Run(step, step(s, e).next, rest).next
    ensures Run(step, s, [e] + rest).effects == step(s, e).effects + Run(step, step(s, e).next, rest).effects
  {
    assert ([e] + rest)[0] == e;
    assert ([e] + rest)[1..] == rest;
  }

  /** A property every step keeps holds after any trace. */
  lemma {:induction false} RunPreserves<S, E, X>(step: (S, E) -> Transition<S, X>, inv: S -> bool, s: S, events: seq<E>)
    requires forall s', e :: inv(s') ==> inv(step(s', e).next)
    requires inv(s)
    ensures inv(Run(step, s, events).next)
    decreases |events|
  {
    if |events| > 0 {
      RunPreserves(step, inv, step(s, events[0]).next, events[1..]);
    }
  }
}
